=== FILE: README.md ===
# DgrmJS interaction engine, modelled in Dafny

This project models the interaction engine of the DgrmJS diagram editor. It treats the engine as four small deterministic state machines. Each is a pure step function over immutable data, with lemmas about sequences of events.

- **Canvas selection processor** (`CanvasSelecEvtProc`), in modules `CanvasSelec` and `CanvasSelecRuns`. It covers:
  - panning by dragging the canvas;
  - rubber-band selection after a long press;
  - moving a whole selection by dragging one of its shapes;
  - deselecting on a click.

  The processor state is a `Proc`. It holds:
  - the tracked shapes;
  - the nullable selection;
  - `downElem` and `isDownOnSelectedShape`;
  - the pending long-press timer;
  - the optional select rectangle;
  - the per-shape centre caches.

  It also holds the diagram's elements, as a heap from element identity to `SvgShape.Shape`. Inputs to `CanvasSelec.Step` are:
  - the diagram's `add`/`del` notifications;
  - an element and event offered by the dispatcher (`canProcess`, then `process`);
  - the long-press callback (`TimerFire`), which is enabled only while a timer is pending.

  `CanvasSelecRuns.Run` folds `Step` over a sequence of inputs.
- **Select rectangle** (`rectCreate`, `rectDraw`), in module `SelectRect`: integer geometry of the rubber band.
- **Long-press timer bookkeeping**, in module `LongPressTimer`: the `_timer` handle against a table of scheduled callbacks. It exists so that a callback the processor has lost track of can be seen.
- **Shape element state** (`SvgShape`), in module `SvgShape`:
  - the state set;
  - the four rendered class flags;
  - the non-destructive connector merge;
  - the hover cascade onto connectors;
  - `update`, the one way a shape changes.
- **Path processor** (`PathEvtProc`), in module `PathEvtProc`: selects a path on release, and clears its `selected` flag on `unselect`.
- **Palette drag controller** (`Menu.handleEvent`), in module `MenuShape`:
  - a pressed template key;
  - the element pressed on;
  - the last element seen under the pointer;
  - the native-leave flag.

  It requests pointer capture, and it requests at most one shape creation per press.

Collaborators whose code is not part of this model become inputs or recorded outputs:

- `document.elementFromPoint` is an input:
  - on canvas events, as the set of shapes whose cached centre hits the rectangle;
  - on menu events, as the element under the pointer.
- `parseCenterAttr` is a function carried by `TimerFire`.
- `setTimeout`/`clearTimeout` become the pending-timer slot and the `TimerFire` input.
- `shapeMove`/`shapeMoveEnd` become recorded `Call`s.
- `setPointerCapture` and `shapeActiveAdd` become recorded `Request`s.
- `shapeStateSet`/`shapeStateDel` (shape-utils.js is not part of this model) are an `SvgShape.Update` whose state is the current one with the flag added or removed.

One throw of the code is modelled. A group move or move-end whose selection has meanwhile been dropped throws a `TypeError` on the null set; the model emits a `TypeErrorThrown` call and keeps the state changes made before the throw. The other throws are listed under "## Left out".

Two behaviours of the code are worth knowing:

- **A long press released without a move takes the click branch.** The long-press callback does not clear `downElem`; only a move or a release does. So a release that follows the callback without a move takes the click branch, which drops the selection and leaves the rectangle open until a later release finalises it. `CanvasSelecRuns.LongPressWithoutMoveLeavesRect` states this.
- **`_clean` keeps the native-leave flag.** Only the next press resets it, so after a leave the menu ignores moves until the next press (`MenuShape.AfterLeaveInert`).

## Model

| member | source | states |
|---|---|---|
| `SvgShape.New` | src/diagram/svg-presenter/svg-shape/svg-shape.js:15-31 | A new shape has no state flag and no connectors. Its type is the given one, or 'shape' when none is given. Its position is that of the wrapped element. |
| `SvgShape.StateHas` | src/diagram/svg-presenter/svg-shape/svg-shape.js:37-39 | On a shape whose classes are in sync, a rendered flag is in the state exactly when its class is on the element. |
| `SvgShape.StateGet` | src/diagram/svg-presenter/svg-shape/svg-shape.js:37-44 | The returned set holds exactly the flags `stateHas` reports. It is a value, so changing it cannot change the shape. |
| `SvgShape.ClassSync` | src/diagram/svg-presenter/svg-shape/svg-shape.js:78-80 | After syncing a list of flags, each listed flag's class is on exactly when the state has it. Classes for unlisted flags are as before. |
| `SvgShape.MergeConnectors` | src/diagram/svg-presenter/svg-shape/svg-shape.js:67-74 | The merge keeps the same connector keys and leaves unsupplied keys unchanged. For supplied keys it writes exactly the supplied `innerPosition`/`dir` fields and leaves the connector's state alone. |
| `SvgShape.DropHover` | src/diagram/svg-presenter/svg-shape/svg-shape.js:82-86 | Every connector loses `hovered` and keeps its other flags, its position and its direction. |
| `SvgShape.ApplyState` | src/diagram/svg-presenter/svg-shape/svg-shape.js:76-87 | The state branch does three things. It replaces the state wholesale. It makes the four rendered classes equal the new state on those flags, leaving other classes alone. It clears `hovered` on every connector exactly when the new state lacks it. |
| `SvgShape.Update` | src/diagram/svg-presenter/svg-shape/svg-shape.js:58-88 | Position, connectors and state each change only when the patch supplies them, and then as their branch says. Kind and connector keys never change. Classes stay in sync with the state. The source needs every supplied connector key that carries a field to exist. |
| `SvgShape.StateSet` | src/diagram-extensions/event-processors/canvas-selec-evt-proc.js:185 | The shape's own state gains or loses exactly that flag. Position, kind and connector keys are kept, and the classes end in sync. As with any state update, when the shape ends without `hovered` every connector loses `hovered` (keeping its other flags, position and direction); otherwise the connectors are unchanged. |
| `SvgShape.StateDel` | src/diagram-extensions/event-processors/canvas-selec-evt-proc.js:171 | Deleting a flag removes it and keeps every other flag. |
| `SvgShape.EmptyPatchIsIdentity` | src/diagram/svg-presenter/svg-shape/svg-shape.js:58-88 | An update with nothing in it leaves the shape unchanged. |
| `SvgShape.MergeConnectorsStable` | src/diagram/svg-presenter/svg-shape/svg-shape.js:67-74 | Merging a patch into connectors that already carry every supplied field changes nothing. |
| `SvgShape.ApplyStateIdempotent` | src/diagram/svg-presenter/svg-shape/svg-shape.js:76-87 | Setting the same state twice gives the same shape as setting it once: classes and the hover cascade are stable. |
| `SvgShape.UpdateIdempotent` | src/diagram/svg-presenter/svg-shape/svg-shape.js:58-88 | Applying the same patch twice gives the same shape as applying it once. |
| `SvgShape.HoverCascade` | src/diagram/svg-presenter/svg-shape/svg-shape.js:82-86 | Setting a state without `hovered` clears `hovered` on every connector in the same update, and keeps the connector's other flags, including `selected`. |
| `PathEvtProc.CanProcess` | src/diagram/event-processors/path-evt-proc.js:17 | A path processor accepts exactly the elements of type 'path'. |
| `PathEvtProc.Process` | src/diagram/event-processors/path-evt-proc.js:23-32 | `pointerup` makes the path the diagram's selected element. `unselect` removes `selected` from the path and keeps its other flags and the diagram's selection. Any other event changes nothing. |
| `PathEvtProc.ReleaseThenUnselect` | src/diagram/event-processors/path-evt-proc.js:23-32 | After a release and then an unselect, the path is still the diagram's selection but has no `selected` flag. |
| `PathEvtProc.UnselectIdempotent` | src/diagram/event-processors/path-evt-proc.js:28-30 | A second `unselect` changes nothing. |
| `SelectRect.RectCreate` | src/diagram-extensions/event-processors/canvas-selec-evt-proc.js:222-236 | A new rectangle is anchored at the press point, with `x`/`y` at that point and the start marker shown. Its width and height come from the 'select' template, which is not part of this model, and are taken as zero, so it covers the press point. |
| `SelectRect.RectDraw` | src/diagram-extensions/event-processors/canvas-selec-evt-proc.js:242-260 | As written: width and height are the absolute offsets from the start point. `x`/`y` become the pointer's coordinate only when the offset is negative, and otherwise keep their previous value. The start marker is removed. |
| `SelectRect.RectDrawStaleCorner` | src/diagram-extensions/event-processors/canvas-selec-evt-proc.js:248-259 | As written, a drag from (100,100) to (50,100) and back to (150,100) leaves a rectangle spanning x 50..100. It neither reaches the pointer nor spans the start point and the pointer. |
| `SelectRect.RectDrawFixed` | src/diagram-extensions/event-processors/canvas-selec-evt-proc.js:242-260 | Corrected: the rectangle is exactly the box with the start point and the pointer as corners, and it covers both. |
| `SelectRect.RectDrawAgreesWhenAnchored` | src/diagram-extensions/event-processors/canvas-selec-evt-proc.js:222-260 | While `x`/`y` still sit at the start point, as on the first draw after creation, the written and corrected versions agree. |
| `SelectRect.RectDrawWrongOnlyWhenStale` | src/diagram-extensions/event-processors/canvas-selec-evt-proc.js:251-259 | Whenever the two versions differ, the written one fails to span the start point and the pointer. |
| `LongPressTimer.TimerDel` | src/diagram-extensions/event-processors/canvas-selec-evt-proc.js:204-207 | `_timerDel` cancels the callback the handle names, if any, and forgets the handle. |
| `LongPressTimer.ArmAsWritten` | src/diagram-extensions/event-processors/canvas-selec-evt-proc.js:94-119 | As written, a press on the canvas schedules a new callback, with a fresh id, and points the handle at it. Every callback already scheduled stays scheduled, and the id counter advances. |
| `LongPressTimer.Fire` | src/diagram-extensions/event-processors/canvas-selec-evt-proc.js:94-95 | A firing callback is no longer scheduled. Its `_timerDel` cancels the callback the handle names, if any, and leaves no handle. It cancels nothing else: every other scheduled callback the handle does not name stays scheduled, and the id counter is unchanged. |
| `LongPressTimer.OverwrittenTimerOutlivesRelease` | src/diagram-extensions/event-processors/canvas-selec-evt-proc.js:94-124 | Two presses and then a release leave the first callback scheduled with no handle naming it, so a further `_timerDel` (a second release or `canvasleave`) leaves it scheduled too. |
| `LongPressTimer.ArmFixed` | src/diagram-extensions/event-processors/canvas-selec-evt-proc.js:94-119 | Corrected arming cancels the pending callback first, so exactly the new callback is scheduled. |
| `LongPressTimer.TimerDelCancelsAll` | src/diagram-extensions/event-processors/canvas-selec-evt-proc.js:204-207 | With at most one live callback, both `_timerDel` and a firing callback leave nothing scheduled. |
| `LongPressTimer.ApplyFixed` | src/diagram-extensions/event-processors/canvas-selec-evt-proc.js:94-124 | Arming (corrected), cancelling and firing each keep at most one callback live. |
| `LongPressTimer.RunFixed` | src/diagram-extensions/event-processors/canvas-selec-evt-proc.js:94-124 | Over any run of those operations, at most one callback stays live, and `_timerDel` then cancels everything. |
| `CanvasSelec.New` | src/diagram-extensions/event-processors/canvas-selec-evt-proc.js:18-34 | A new processor tracks no shapes and has no selection, timer or rectangle. It satisfies the invariant. |
| `CanvasSelec.SetHighlighted` | src/diagram-extensions/event-processors/canvas-selec-evt-proc.js:185 | The shape's own state changes only in `highlighted`; kind, position and connector keys are kept. Connectors are unchanged when the shape has `hovered`, and otherwise lose `hovered`. |
| `CanvasSelec.Highlight` | src/diagram-extensions/event-processors/canvas-selec-evt-proc.js:183-190 | Each visited shape ends with `highlighted` exactly when it is in the hit set. Every element keeps its kind, position and other flags, and shapes not visited are untouched. |
| `CanvasSelec.SelectedClean` | src/diagram-extensions/event-processors/canvas-selec-evt-proc.js:170-173 | Every shape of the old selection loses `highlighted` and keeps its kind, position and other flags; the selection becomes null. Other shapes and fields are unchanged. |
| `CanvasSelec.OnShapeClick` | src/diagram-extensions/event-processors/canvas-selec-evt-proc.js:165-167 | By default, clicking a selected shape does what `_selectedClean` does: the old selection's shapes lose `highlighted` and keep everything else, the selection becomes null, and other shapes and fields are unchanged. |
| `CanvasSelec.CanProcess` | src/diagram-extensions/event-processors/canvas-selec-evt-proc.js:40-47 | The processor accepts exactly the canvas and members of the selection, and then changes nothing. On rejection, the selection is dropped and its shapes lose `highlighted`. |
| `CanvasSelec.ShapeInRectSelect` | src/diagram-extensions/event-processors/canvas-selec-evt-proc.js:180-192 | Every tracked shape's `highlighted` flag follows its membership in the hit set, and it keeps its kind, position and other flags. Untracked elements and the other fields are unchanged. |
| `CanvasSelec.SelectEnd` | src/diagram-extensions/event-processors/canvas-selec-evt-proc.js:195-201 | The rectangle is gone and highlighting follows the hit set; tracked shapes keep their kind, position and other flags, and untracked elements are unchanged. The selection is null iff no tracked shape is hit. Otherwise it is exactly the tracked shapes hit, which is non-empty, inside the heap and all highlighted. No other field changes. |
| `CanvasSelec.SelectEndSelectsHighlighted` | src/diagram-extensions/event-processors/canvas-selec-evt-proc.js:183-197 | After `_selectEnd`, the selection is exactly the highlighted tracked shapes. It is null exactly when none is highlighted. |
| `CanvasSelec.Down` | src/diagram-extensions/event-processors/canvas-selec-evt-proc.js:79-120 | `pointerdown` does four things. It clears the diagram's selected element. It records the target as `downElem`. It records whether the target is in the selection. It arms the timer, with the canvas and press point, only when the processed element is the canvas. Nothing else changes: elements, selection, rectangle, `activeElement` and the centre caches are kept. |
| `CanvasSelec.Move` | src/diagram-extensions/event-processors/canvas-selec-evt-proc.js:55-77 | `pointermove` always clears the timer and `downElem`. Then, in order: with a rectangle it re-highlights the tracked shapes (untracked elements unchanged) and redraws it; on a selected shape it moves the whole selection (or throws on a null selection); otherwise it pans the processed element. Each element keeps its kind, position and every own flag other than `highlighted` (its connectors may lose `hovered`, as with any state update), and no field other than the timer, `downElem`, the elements and the rectangle changes. |
| `CanvasSelec.Release` | src/diagram-extensions/event-processors/canvas-selec-evt-proc.js:121-157 | `pointerup`/`canvasleave` clear `activeElement` and the timer, then take the first branch that applies. Click: the old selection's shapes lose `highlighted`, other elements are unchanged, the selection becomes null, `downElem` is cleared and nothing else (the rectangle included) changes. Rectangle end: as `_selectEnd`, untracked elements unchanged. Group move end: only `isDownOnSelectedShape` is reset. Canvas move end: nothing else changes. Each element keeps its kind, position and every own flag other than `highlighted`. |
| `CanvasSelec.CacheInnerCenters` | src/diagram-extensions/event-processors/canvas-selec-evt-proc.js:105-107 | A shape's inner centre is parsed only when it is not cached yet; cached entries are kept. |
| `CanvasSelec.AbsoluteCenters` | src/diagram-extensions/event-processors/canvas-selec-evt-proc.js:102-114 | Every tracked shape's centre becomes shape position + inner centre + canvas position; other entries are kept. |
| `CanvasSelec.FireTimer` | src/diagram-extensions/event-processors/canvas-selec-evt-proc.js:94-119 | The callback clears the timer and the selection; only the old selection's shapes change, losing `highlighted` and keeping their kind, position and other flags. It caches each tracked shape's inner centre only if not cached. It sets each centre to shape position + inner centre + canvas position, and opens a rectangle at the press point. Both caches gain entries for exactly the tracked shapes, and no others. Every other field (`downElem`, `isDownOnSelectedShape`, `selected`, `activeElement`, the tracked shapes) is unchanged. |
| `CanvasSelec.Process` | src/diagram-extensions/event-processors/canvas-selec-evt-proc.js:53-159 | `process` keeps the invariant: the selection is never empty, always highlighted, and absent while a rectangle is open. |
| `CanvasSelec.Step` | src/diagram-extensions/event-processors/canvas-selec-evt-proc.js:27-30 | `add` tracks an element only when its type is 'shape'. `del` forgets it whatever it is. Every input keeps the invariant, and the callback always opens a rectangle. |
| `CanvasSelecRuns.Run` | src/diagram-extensions/event-processors/canvas-selec-evt-proc.js:53-159 | Over any admissible run of inputs, the invariant holds, so a selection is never an empty set. |
| `CanvasSelecRuns.NoPressKeepsLongPressIdle` | src/diagram-extensions/event-processors/canvas-selec-evt-proc.js:53-124 | With no timer and no press remembered, and no new press: the callback cannot run, no rectangle opens, and no release takes the click branch. |
| `CanvasSelecRuns.MoveCancelsLongPress` | src/diagram-extensions/event-processors/canvas-selec-evt-proc.js:55-57 | After a move, until the next press, the long-press callback never runs and no rectangle opens. |
| `CanvasSelecRuns.ClickOnCanvasDeselects` | src/diagram-extensions/event-processors/canvas-selec-evt-proc.js:126-134 | A press and release on the canvas with no move drop the selection, and its shapes lose `highlighted`. |
| `CanvasSelecRuns.DragIsNotClick` | src/diagram-extensions/event-processors/canvas-selec-evt-proc.js:53-157 | A press, move and release on the canvas pan it (one move, one move end) and leave the selection and the elements unchanged. |
| `CanvasSelecRuns.PressOnCanvasArms` | src/diagram-extensions/event-processors/canvas-selec-evt-proc.js:79-120 | A press on the canvas arms the timer with the press point and remembers the press. Nothing tracked changes. |
| `CanvasSelecRuns.FireOpensRect` | src/diagram-extensions/event-processors/canvas-selec-evt-proc.js:94-119 | The callback opens a rectangle at the press point and leaves no selection. |
| `CanvasSelecRuns.MoveKeepsRect` | src/diagram-extensions/event-processors/canvas-selec-evt-proc.js:59-66 | A move while the rectangle is open keeps it open, makes no call and forgets the press. |
| `CanvasSelecRuns.ReleaseEndsSelect` | src/diagram-extensions/event-processors/canvas-selec-evt-proc.js:141-145 | A release with a rectangle and no remembered press finalises the selection to the tracked shapes hit, or none. |
| `CanvasSelecRuns.LongPressThenMove` | src/diagram-extensions/event-processors/canvas-selec-evt-proc.js:53-120 | Press, callback, move: the rectangle is open, the press is forgotten and no call is made. |
| `CanvasSelecRuns.LongPressThenDragSelects` | src/diagram-extensions/event-processors/canvas-selec-evt-proc.js:53-157 | Press, callback, move, release: the tracked shapes hit are highlighted and become the selection (none if no shape is hit), and the rectangle is gone. |
| `CanvasSelecRuns.LongPressWithoutMoveLeavesRect` | src/diagram-extensions/event-processors/canvas-selec-evt-proc.js:126-139 | Press, callback, release: the release takes the click branch, so the selection is dropped but the rectangle stays open. |
| `CanvasSelecRuns.GroupDrag` | src/diagram-extensions/event-processors/canvas-selec-evt-proc.js:69-152 | Press, move and release on a selected shape move the whole selection once and end its move once. The selection is kept and the group-move flag is reset. |
| `MenuShape.Clean` | src/app/ui/elements/menu-shape/menu-shape.js:150-154 | `_clean` forgets the key and both elements and keeps the native-leave flag. |
| `MenuShape.HandleEvent` | src/app/ui/elements/menu-shape/menu-shape.js:93-147 | Per event: `pointerdown` records key and element, and resets the flag. `pointermove` after a leave, or over the same element, changes nothing; otherwise it requests capture iff the last element seen is the pressed one, then updates it. `pointerleave` sets the flag, requests exactly one creation (key, client point, text 'Title') iff a non-empty key is pressed, then cleans. `pointerup` only cleans. |
| `MenuShape.AtMostOneCreation` | src/app/ui/elements/menu-shape/menu-shape.js:116-145 | With no new press, any sequence of events requests at most one creation, and none once no key is pressed. |
| `MenuShape.AtMostOneCreationPerPress` | src/app/ui/elements/menu-shape/menu-shape.js:116-142 | A press followed by any events without another press requests at most one creation. |
| `MenuShape.MovesKeepPress` | src/app/ui/elements/menu-shape/menu-shape.js:95-115 | Moves never change the pressed key or the leave flag, and never request a creation. |
| `MenuShape.DragOutCreatesOne` | src/app/ui/elements/menu-shape/menu-shape.js:95-142 | Press on an icon with a non-empty key, move, leave the panel: exactly one creation is requested, last, for that key at the leave point. The key is then forgotten. |
| `MenuShape.ReleaseInsideCreatesNothing` | src/app/ui/elements/menu-shape/menu-shape.js:95-154 | Press, move, release inside the panel: no creation is requested, and key and elements are forgotten. |
| `MenuShape.AfterLeaveInert` | src/app/ui/elements/menu-shape/menu-shape.js:95-133 | After a leave, a second leave requests nothing and a move changes nothing. |
| `MenuShape.HoverAfterReleaseRequestsCapture` | src/app/ui/elements/menu-shape/menu-shape.js:99-154 | The move branch has no press guard. After a release, the first move onto any element requests capture although nothing is pressed. |

## Left out

- DOM work is not modelled:
  - the Shadow-DOM template and styles, listener registration, `customElements.define`;
  - SVG element creation and removal for the rectangle and its start marker;
  - `_attrsSet`, `svgTextDraw` and `textParamsParse` (the `props` branch of `update`).

  These write attributes and lay out text. The model keeps only the marker's shown/removed flag and the rectangle's geometry.
- `svgPositionGet`/`svgPositionSet`, `parseCenterAttr`, `stateClassSync`, `shapeMove`, `shapeMoveEnd`, `shapeStateSet` and `shapeStateDel` live in files that are not part of this model:
  - positions are a field of the shape;
  - `parseCenterAttr` is an input;
  - the class sync is a set insert/delete;
  - the move primitives are recorded calls.
- Real timing: the 500 ms delay is not modelled. A pending timer is a slot, and its callback is an input enabled only while the slot is full. `CanvasSelec` keeps at most one pending callback, which is the corrected arming of `LongPressTimer.ArmFixed`.
- Hit-testing geometry: `elementFromPoint` is an input, given as the set of shapes hit.
- CanvasSelec.ShapeInRectSelect: a tracked shape added after the long-press callback has no cached centre, and `shape[shapeCenter].x` (canvas-selec-evt-proc.js:184) then throws a `TypeError`. The throw stops the highlighting part-way; under `_selectEnd`, the selection and the rectangle are never updated. The model does not distinguish this case: it highlights from the given hit set as usual, and so do `CanvasSelec.Move` and `CanvasSelec.SelectEnd`.
- CanvasSelec.SelectEnd: inherits the gap above; it does not model the missing-centre `TypeError` at canvas-selec-evt-proc.js:184 and always updates the selection and drops the rectangle. One input that reaches it is a long press released without a move (the rectangle stays open), then a shape added, then a press and a move on the canvas, then a release: the move throws inside `_shapeInRectSelect` (canvas-selec-evt-proc.js:62), and the release reaches `_selectEnd` (canvas-selec-evt-proc.js:143, 197) with the same missing centre.
- CanvasSelec.Move: redraws the rectangle with the corrected `SelectRect.RectDrawFixed` rather than the as-written `rectDraw` (see "## Findings"). It therefore does not reproduce the stale `x`/`y` that the code leaves after a drag crosses back over the start point. `SelectRect.RectDraw` models the code as written.
- CanvasSelec.Down: arms the timer by replacing the pending slot. This is the corrected arming of `LongPressTimer.ArmFixed`; as written, the code leaves an earlier callback scheduled (see "## Findings").
- MenuShape.HandleEvent: `None` stands both for a field never assigned (`undefined`) and for `null` (after `_clean`, or when `elementFromPoint` finds nothing). In the code, the first move after the page loads, with `elementFromPoint` returning `null`, still requests capture, because `null !== undefined` and `undefined === undefined` (menu-shape.js:100,105). The model requests nothing there.
- The dispatcher that decides which processor is offered an element, and the `unselect` event's sender, are not part of this model.
- Object aliasing: `update` stores the caller's set as the state, and the caller could mutate it later. Values cannot alias, so this is not modelled.
- The `connectable` and `defaultInConnector` constructor fields are not used by any modelled operation.
- Floating-point coordinates: points are integers.
- SvgShape.Update: requires that every supplied connector key carrying a field exists. The JavaScript throws a `TypeError` on the missing connector part-way through the update; that error path is not modelled.

## Findings

| source | as written | input that shows it | evidently intended | confidence | as-written member | corrected member |
|---|---|---|---|---|---|---|
| src/diagram-extensions/event-processors/canvas-selec-evt-proc.js:251-259 | `rectDraw` writes `x`/`y` only when the pointer is left of / above the start point, and otherwise keeps the previous value | start at (100,100), move to (50,100), then to (150,100): x stays 50 with width 50, so the rectangle spans 50..100 | the rectangle spans the start point and the pointer: x = min(start.x, clientX), y likewise | not executed | `SelectRect.RectDrawStaleCorner` | `SelectRect.RectDrawFixed` |
| src/diagram-extensions/event-processors/canvas-selec-evt-proc.js:94-119 | `pointerdown` on the canvas overwrites `_timer` without clearing the pending callback | two presses on the canvas (a second touch) before any move or release, then a release: the release cancels only the second callback, and the first stays scheduled with no handle naming it, so no later `_timerDel` cancels it; when it runs, the callback opens a rectangle after the gesture has ended | at most one long-press callback is pending, and a release cancels it | not executed; needs the dispatcher to deliver a second press before a release | `LongPressTimer.OverwrittenTimerOutlivesRelease` | `LongPressTimer.ArmFixed` |

=== FILE: canvas_selec_evt_proc.dfy ===
/** The canvas selection processor: pan by dragging the canvas, long press then
    drag to rubber-band select, drag a selected shape to move the whole
    selection, click to deselect.

    The diagram's elements are a heap from identity to `SvgShape.Shape`; the
    processor changes them only through the `highlighted` flag. Timers become
    a slot plus a `TimerFire` input that is enabled only while the slot is full;
    hit-testing and `parseCenterAttr` are supplied by the inputs; `shapeMove`
    and `shapeMoveEnd` are recorded as calls. */
module CanvasSelec {
  import opened Common
  import SvgShape
  import opened SelectRect

  type Heap = map<ElemId, SvgShape.Shape>

  /** What the long-press callback captured: the processed canvas and the
      client point of the press. */
  datatype TimerArgs = TimerArgs(canvas: ElemId, down: Point)

  /** Processor fields, plus the two diagram fields it writes (`selected`,
      `activeElement`) and the element heap. `innerCenter` and `center` are the
      per-shape caches the JavaScript attaches to the shape objects. */
  datatype Proc = Proc(
    elems: Heap,
    selected: Option<ElemId>,
    activeElement: Option<ElemId>,
    shapes: set<ElemId>,
    selectedShapes: Option<set<ElemId>>,
    downElem: Option<ElemId>,
    isDownOnSelectedShape: bool,
    timer: Option<TimerArgs>,
    selectRect: Option<Rect>,
    innerCenter: map<ElemId, Point>,
    center: map<ElemId, Point>)

  /** Calls into the shape-move primitive, whose code is not part of this
      model, and the exception the JavaScript throws when it iterates a null
      selection. */
  datatype Call =
    | ShapeMove(targets: set<ElemId>, client: Point)
    | ShapeMoveEnd(targets: set<ElemId>)
    | TypeErrorThrown

  /** Pointer events as the processor receives them. `inRect` is the set of
      elements whose cached centre `elementFromPoint` resolves to the select
      rectangle, as rendered when the event arrives. */
  datatype PointerEvent =
    | PointerDown(target: ElemId, client: Point)
    | PointerMove(client: Point, inRect: set<ElemId>)
    | PointerUp(target: ElemId, client: Point, inRect: set<ElemId>)
    | CanvasLeave(target: ElemId, client: Point, inRect: set<ElemId>)

  /** Everything that can happen to the processor: the diagram's `add` and
      `del` notifications, the dispatcher offering it an element and event
      (`canProcess`, then `process` if accepted), and the long-press callback,
      which receives what `parseCenterAttr` reads from each shape. */
  datatype Input =
    | Added(id: ElemId)
    | Deleted(id: ElemId)
    | Offered(elem: ElemId, evt: PointerEvent)
    | TimerFire(centerAttr: ElemId -> Point)

  datatype Out = Out(proc: Proc, calls: seq<Call>)

  /** A selection is never empty, lives in the heap, and every member is highlighted. */
  predicate SelectionOk(elems: Heap, sel: set<ElemId>) {
    && sel != {}
    && sel <= elems.Keys
    && forall id :: id in sel ==> Highlighted in elems[id].state
  }

  /** `b` is `a` with at most its `highlighted` flag changed: same kind, same
      position, same other flags. The processor changes shapes only this way. */
  ghost predicate OnlyHighlightDiffers(a: SvgShape.Shape, b: SvgShape.Shape) {
    && a.kind == b.kind
    && a.position == b.position
    && forall f :: f != Highlighted ==> (f in a.state <==> f in b.state)
  }

  /** Every element of `a` is in `b`, changed at most in its `highlighted` flag. */
  ghost predicate HeapOnlyHighlightDiffers(a: Heap, b: Heap) {
    && a.Keys == b.Keys
    && forall id :: id in a ==> OnlyHighlightDiffers(a[id], b[id])
  }

  /** The processor's invariant. */
  predicate Valid(p: Proc) {
    && p.shapes <= p.elems.Keys
    && (p.selectedShapes.Some? ==> SelectionOk(p.elems, p.selectedShapes.value))
    && (p.selectRect.Some? ==> p.selectedShapes.None?)
    && (p.timer.Some? ==> p.timer.value.canvas in p.elems && p.downElem.Some?)
  }

  /** The constructor, over the diagram's elements. */
  function New(elems: Heap): (p: Proc)
    ensures Valid(p)
    ensures p.shapes == {} && p.selectedShapes.None? && p.timer.None? && p.selectRect.None?
  {
    Proc(elems, None, None, {}, None, None, false, None, None, map[], map[])
  }

  function KindOf(p: Proc, id: ElemId): ElemType
    requires id in p.elems
  {
    p.elems[id].kind
  }

  /** `shapeStateSet(shape, 'highlighted', on)` as the processor uses it. */
  function SetHighlighted(s: SvgShape.Shape, on: bool): (r: SvgShape.Shape)
    ensures Highlighted in r.state <==> on
    ensures OnlyHighlightDiffers(s, r)
    ensures r.connectors.Keys == s.connectors.Keys
    ensures Hovered in s.state ==> r.connectors == s.connectors
    ensures Hovered !in s.state ==> forall k :: k in s.connectors ==>
      r.connectors[k].state == s.connectors[k].state - {Hovered}
  {
    SvgShape.StateSet(s, Highlighted, on)
  }

  /** Sets `highlighted` on each shape of `ids` exactly when it is in `lit`. */
  function Highlight(elems: Heap, ids: set<ElemId>, lit: set<ElemId>): (r: Heap)
    ensures r.Keys == elems.Keys
    ensures forall id :: id in elems && id in ids ==> (Highlighted in r[id].state <==> id in lit)
    ensures forall id :: id in elems && id !in ids ==> r[id] == elems[id]
    ensures HeapOnlyHighlightDiffers(elems, r)
  {
    map id | id in elems :: if id in ids then SetHighlighted(elems[id], id in lit) else elems[id]
  }

  /** `_selectedClean`: un-highlight the selection and drop it. */
  function SelectedClean(p: Proc): (r: Proc)
    ensures r.selectedShapes.None?
    ensures r.elems.Keys == p.elems.Keys
    ensures p.selectedShapes.Some? ==> forall id :: id in p.selectedShapes.value && id in p.elems ==>
      Highlighted !in r.elems[id].state
    ensures p.selectedShapes.Some? ==> forall id :: id !in p.selectedShapes.value && id in p.elems ==>
      r.elems[id] == p.elems[id]
    ensures p.selectedShapes.None? ==> r.elems == p.elems
    ensures HeapOnlyHighlightDiffers(p.elems, r.elems)
    ensures r == p.(elems := r.elems, selectedShapes := None)
  {
    match p.selectedShapes
    case None => p
    case Some(sel) => p.(elems := Highlight(p.elems, sel, {}), selectedShapes := None)
  }

  /** `onShapeClick`: the overridable hook; by default it deselects. */
  function OnShapeClick(p: Proc): (r: Proc)
    ensures r.selectedShapes.None?
    ensures r.elems.Keys == p.elems.Keys
    ensures p.selectedShapes.Some? ==> forall id :: id in p.selectedShapes.value && id in p.elems ==>
      Highlighted !in r.elems[id].state
    ensures p.selectedShapes.Some? ==> forall id :: id !in p.selectedShapes.value && id in p.elems ==>
      r.elems[id] == p.elems[id]
    ensures p.selectedShapes.None? ==> r.elems == p.elems
    ensures HeapOnlyHighlightDiffers(p.elems, r.elems)
    ensures r == p.(elems := r.elems, selectedShapes := None)
  {
    SelectedClean(p)
  }

  /** `canProcess`: accept the canvas and members of the selection; any other
      element is rejected and the selection is cleaned as a side effect. */
  function CanProcess(p: Proc, elem: ElemId): (r: (bool, Proc))
    requires elem in p.elems
    ensures r.0 <==> (KindOf(p, elem) == CanvasElem || (p.selectedShapes.Some? && elem in p.selectedShapes.value))
    ensures r.0 ==> r.1 == p
    ensures !r.0 ==> r.1 == SelectedClean(p)
    ensures !r.0 && p.selectedShapes.Some? ==> forall id :: id in p.selectedShapes.value && id in p.elems ==>
      Highlighted !in r.1.elems[id].state
  {
    var accepted := KindOf(p, elem) == CanvasElem || (p.selectedShapes.Some? && elem in p.selectedShapes.value);
    if accepted then (true, p) else (false, SelectedClean(p))
  }

  /** `_shapeInRectSelect`: every tracked shape's `highlighted` flag follows
      whether its centre is in the rectangle. */
  function ShapeInRectSelect(p: Proc, inRect: set<ElemId>): (r: Proc)
    requires p.shapes <= p.elems.Keys
    ensures r.elems.Keys == p.elems.Keys
    ensures forall id :: id in p.shapes ==> (Highlighted in r.elems[id].state <==> id in inRect)
    ensures forall id :: id in p.elems && id !in p.shapes ==> r.elems[id] == p.elems[id]
    ensures HeapOnlyHighlightDiffers(p.elems, r.elems)
    ensures r == p.(elems := r.elems)
  {
    p.(elems := Highlight(p.elems, p.shapes, inRect))
  }

  /** `_selectEnd`: the highlighted tracked shapes become the selection, or
      there is no selection when none is highlighted; the rectangle goes away. */
  function SelectEnd(p: Proc, inRect: set<ElemId>): (r: Proc)
    requires p.shapes <= p.elems.Keys
    ensures r.elems.Keys == p.elems.Keys
    ensures r.selectRect.None?
    ensures forall id :: id in p.shapes ==> (Highlighted in r.elems[id].state <==> id in inRect)
    ensures forall id :: id in p.elems && id !in p.shapes ==> r.elems[id] == p.elems[id]
    ensures HeapOnlyHighlightDiffers(p.elems, r.elems)
    ensures r.selectedShapes.None? <==> p.shapes * inRect == {}
    ensures r.selectedShapes.Some? ==>
      r.selectedShapes.value == p.shapes * inRect && SelectionOk(r.elems, r.selectedShapes.value)
    ensures r == p.(elems := r.elems, selectedShapes := r.selectedShapes, selectRect := None)
  {
    var hits := p.shapes * inRect;
    var p1 := ShapeInRectSelect(p, inRect);
    if hits == {} then
      p1.(selectedShapes := None, selectRect := None)
    else
      p1.(selectedShapes := Some(hits), selectRect := None)
  }

  /** The new selection is exactly the tracked shapes left highlighted, and
      there is none when no tracked shape is highlighted. */
  lemma SelectEndSelectsHighlighted(p: Proc, inRect: set<ElemId>)
    requires p.shapes <= p.elems.Keys
    ensures var r := SelectEnd(p, inRect);
      && (r.selectedShapes.None? <==> forall id :: id in p.shapes ==> Highlighted !in r.elems[id].state)
      && (r.selectedShapes.Some? ==>
            forall id :: id in r.selectedShapes.value <==> id in p.shapes && Highlighted in r.elems[id].state)
  {
    var r := SelectEnd(p, inRect);
    forall id | id in p.shapes
      ensures Highlighted in r.elems[id].state <==> id in p.shapes * inRect
    {
    }
  }

  /** `pointerdown`: drop the diagram's single selection, remember the press,
      and arm the long-press timer when the processed element is the canvas.
      Arming replaces any pending timer (see `LongPressTimer.ArmFixed`). */
  function Down(p: Proc, elem: ElemId, target: ElemId, client: Point): (r: Proc)
    requires elem in p.elems
    ensures r.selected.None?
    ensures r.downElem == Some(target)
    ensures r.isDownOnSelectedShape <==> (p.selectedShapes.Some? && target in p.selectedShapes.value)
    ensures KindOf(p, elem) == CanvasElem ==> r.timer == Some(TimerArgs(elem, client))
    ensures KindOf(p, elem) != CanvasElem ==> r.timer == p.timer
    ensures r == p.(selected := None, downElem := Some(target),
                    isDownOnSelectedShape := r.isDownOnSelectedShape, timer := r.timer)
  {
    var p1 := p.(selected := None, downElem := Some(target),
                 isDownOnSelectedShape := p.selectedShapes.Some? && target in p.selectedShapes.value);
    if KindOf(p, elem) != CanvasElem then p1 else p1.(timer := Some(TimerArgs(elem, client)))
  }

  /** `pointermove`: cancel the timer and forget the press; then redraw the
      rectangle (after re-highlighting against its previous bounds), or move
      the selection, or pan the canvas. */
  function Move(p: Proc, elem: ElemId, client: Point, inRect: set<ElemId>): (r: Out)
    requires p.shapes <= p.elems.Keys
    ensures r.proc.elems.Keys == p.elems.Keys
    ensures r.proc.timer.None? && r.proc.downElem.None?
    ensures p.selectRect.Some? ==>
      && r.calls == []
      && r.proc.selectRect == Some(RectDrawFixed(p.selectRect.value, client))
      && forall id :: id in p.shapes ==> (Highlighted in r.proc.elems[id].state <==> id in inRect)
    ensures p.selectRect.None? ==> r.proc.elems == p.elems && r.proc.selectRect.None?
    ensures p.selectRect.None? && p.isDownOnSelectedShape && p.selectedShapes.Some? ==>
      r.calls == [ShapeMove(p.selectedShapes.value, client)]
    ensures p.selectRect.None? && p.isDownOnSelectedShape && p.selectedShapes.None? ==>
      r.calls == [TypeErrorThrown]
    ensures p.selectRect.None? && !p.isDownOnSelectedShape ==> r.calls == [ShapeMove({elem}, client)]
    ensures p.selectRect.Some? ==> forall id :: id in p.elems && id !in p.shapes ==> r.proc.elems[id] == p.elems[id]
    ensures HeapOnlyHighlightDiffers(p.elems, r.proc.elems)
    ensures r.proc == p.(timer := None, downElem := None, elems := r.proc.elems, selectRect := r.proc.selectRect)
  {
    var p1 := p.(timer := None, downElem := None);
    if p1.selectRect.Some? then
      var p2 := ShapeInRectSelect(p1, inRect);
      Out(p2.(selectRect := Some(RectDrawFixed(p1.selectRect.value, client))), [])
    else if p1.isDownOnSelectedShape then
      if p1.selectedShapes.Some? then Out(p1, [ShapeMove(p1.selectedShapes.value, client)])
      else Out(p1, [TypeErrorThrown])
    else Out(p1, [ShapeMove({elem}, client)])
  }

  /** `pointerup` and `canvasleave`: clear `activeElement` and the timer, then
      in priority order: a click (deselect), the end of a rubber band, the end
      of a group move, the end of a pan. */
  function Release(p: Proc, elem: ElemId, target: ElemId, inRect: set<ElemId>): (r: Out)
    requires p.shapes <= p.elems.Keys && target in p.elems
    ensures r.proc.elems.Keys == p.elems.Keys
    ensures r.proc.activeElement.None? && r.proc.timer.None?
    ensures r.proc.downElem.None?
    ensures p.downElem.Some? ==> r.calls == [] && r.proc.selectedShapes.None? && r.proc.selectRect == p.selectRect
    ensures p.downElem.Some? && p.selectedShapes.Some? ==>
      && (forall id :: id in p.selectedShapes.value && id in p.elems ==> Highlighted !in r.proc.elems[id].state)
      && (forall id :: id !in p.selectedShapes.value && id in p.elems ==> r.proc.elems[id] == p.elems[id])
    ensures p.downElem.Some? && p.selectedShapes.None? ==> r.proc.elems == p.elems
    ensures p.downElem.Some? ==>
      r.proc == p.(activeElement := None, timer := None, downElem := None, selectedShapes := None, elems := r.proc.elems)
    ensures p.downElem.None? && p.selectRect.Some? ==>
      && r.calls == [] && r.proc.selectRect.None?
      && forall id :: id in p.shapes ==> (Highlighted in r.proc.elems[id].state <==> id in inRect)
    ensures p.downElem.None? && p.selectRect.Some? ==>
      (r.proc.selectedShapes.None? <==> p.shapes * inRect == {})
    ensures p.downElem.None? && p.selectRect.Some? && r.proc.selectedShapes.Some? ==>
      r.proc.selectedShapes.value == p.shapes * inRect
    ensures p.downElem.None? && p.selectRect.Some? ==>
      && (forall id :: id in p.elems && id !in p.shapes ==> r.proc.elems[id] == p.elems[id])
      && r.proc == p.(activeElement := None, timer := None, elems := r.proc.elems,
                      selectedShapes := r.proc.selectedShapes, selectRect := None)
    ensures p.downElem.None? && p.selectRect.None? && p.isDownOnSelectedShape && p.selectedShapes.Some? ==>
      r.calls == [ShapeMoveEnd(p.selectedShapes.value)] && !r.proc.isDownOnSelectedShape
    ensures p.downElem.None? && p.selectRect.None? && p.isDownOnSelectedShape && p.selectedShapes.None? ==>
      r.calls == [TypeErrorThrown]
    ensures p.downElem.None? && p.selectRect.None? && !p.isDownOnSelectedShape ==>
      r.calls == [ShapeMoveEnd({elem})]
    ensures p.downElem.None? && p.selectRect.None? && p.isDownOnSelectedShape && p.selectedShapes.Some? ==>
      r.proc == p.(activeElement := None, timer := None, isDownOnSelectedShape := false)
    ensures p.downElem.None? && p.selectRect.None? && !(p.isDownOnSelectedShape && p.selectedShapes.Some?) ==>
      r.proc == p.(activeElement := None, timer := None)
    ensures HeapOnlyHighlightDiffers(p.elems, r.proc.elems)
  {
    var p1 := p.(activeElement := None, timer := None);
    if p1.downElem.Some? then
      var p2 := p1.(downElem := None);
      if KindOf(p2, target) == CanvasElem then Out(SelectedClean(p2), [])
      else Out(OnShapeClick(p2), [])
    else if p1.selectRect.Some? then
      Out(SelectEnd(p1, inRect), [])
    else if p1.isDownOnSelectedShape then
      if p1.selectedShapes.Some? then
        Out(p1.(isDownOnSelectedShape := false), [ShapeMoveEnd(p1.selectedShapes.value)])
      else Out(p1, [TypeErrorThrown])
    else Out(p1, [ShapeMoveEnd({elem})])
  }

  /** The inner-centre cache after the callback: a shape's entry is parsed
      only when it is not cached yet. */
  function CacheInnerCenters(cache: map<ElemId, Point>, shapes: set<ElemId>, centerAttr: ElemId -> Point): (r: map<ElemId, Point>)
    ensures r.Keys == cache.Keys + shapes
    ensures forall id :: id in cache ==> r[id] == cache[id]
    ensures forall id :: id in shapes && id !in cache ==> r[id] == centerAttr(id)
  {
    map id | id in cache.Keys + shapes :: if id in cache then cache[id] else centerAttr(id)
  }

  /** The absolute centres after the callback: shape position + inner centre +
      canvas position for every tracked shape, other entries kept. */
  function AbsoluteCenters(prev: map<ElemId, Point>, shapes: set<ElemId>, elems: Heap,
                           inner: map<ElemId, Point>, canvasPosition: Point): (r: map<ElemId, Point>)
    requires shapes <= elems.Keys && shapes <= inner.Keys
    ensures r.Keys == prev.Keys + shapes
    ensures forall id :: id in shapes ==> r[id] == Plus(Plus(elems[id].position, inner[id]), canvasPosition)
    ensures forall id :: id in prev && id !in shapes ==> r[id] == prev[id]
  {
    map id | id in prev.Keys + shapes ::
      if id in shapes then Plus(Plus(elems[id].position, inner[id]), canvasPosition) else prev[id]
  }

  /** The long-press callback: cancel the timer, clean the selection, compute
      every tracked shape's absolute centre (shape position + cached inner
      centre + canvas position, the inner centre parsed only if not cached)
      and open a rectangle at the press point. */
  function FireTimer(p: Proc, centerAttr: ElemId -> Point): (r: Proc)
    requires Valid(p) && p.timer.Some?
    ensures r.timer.None? && r.selectedShapes.None?
    ensures r.selectRect == Some(RectCreate(p.timer.value.down))
    ensures forall id :: id in p.innerCenter ==> id in r.innerCenter && r.innerCenter[id] == p.innerCenter[id]
    ensures forall id :: id in p.shapes && id !in p.innerCenter ==>
      id in r.innerCenter && r.innerCenter[id] == centerAttr(id)
    ensures forall id :: id in p.shapes ==> (id in r.center && id in r.innerCenter &&
      r.center[id] == Plus(Plus(p.elems[id].position, r.innerCenter[id]), p.elems[p.timer.value.canvas].position))
    ensures forall id :: id in p.center && id !in p.shapes ==> id in r.center && r.center[id] == p.center[id]
    ensures r.innerCenter.Keys == p.innerCenter.Keys + p.shapes && r.center.Keys == p.center.Keys + p.shapes
    ensures r.elems.Keys == p.elems.Keys && r.shapes == p.shapes && r.downElem == p.downElem
    ensures p.selectedShapes.Some? ==> forall id :: id in p.selectedShapes.value ==> Highlighted !in r.elems[id].state
    ensures p.selectedShapes.Some? ==> forall id :: id in p.elems && id !in p.selectedShapes.value ==> r.elems[id] == p.elems[id]
    ensures p.selectedShapes.None? ==> r.elems == p.elems
    ensures HeapOnlyHighlightDiffers(p.elems, r.elems)
    ensures r == p.(timer := None, selectedShapes := None, elems := r.elems, innerCenter := r.innerCenter,
                    center := r.center, selectRect := r.selectRect)
  {
    var args := p.timer.value;
    var p1 := SelectedClean(p.(timer := None));
    var canvasPosition := p1.elems[args.canvas].position;
    var inner := CacheInnerCenters(p1.innerCenter, p1.shapes, centerAttr);
    var center := AbsoluteCenters(p1.center, p1.shapes, p1.elems, inner, canvasPosition);
    p1.(innerCenter := inner, center := center, selectRect := Some(RectCreate(args.down)))
  }

  /** Every element an input names is in the heap, and the long-press
      callback can only run while a timer is pending. */
  predicate Enabled(p: Proc, i: Input) {
    match i
    case Added(id) => id in p.elems
    case Deleted(_) => true
    case Offered(elem, evt) =>
      && elem in p.elems
      && (evt.PointerDown? || evt.PointerUp? || evt.CanvasLeave? ==> evt.target in p.elems)
    case TimerFire(_) => p.timer.Some?
  }

  /** `process(elem, evt)`. */
  function Process(p: Proc, elem: ElemId, evt: PointerEvent): (r: Out)
    requires Valid(p) && Enabled(p, Offered(elem, evt))
    ensures Valid(r.proc)
    ensures r.proc.elems.Keys == p.elems.Keys
    ensures evt.PointerDown? ==> r.calls == [] && r.proc.selected.None?
    ensures evt.PointerMove? ==> r.proc.timer.None? && r.proc.downElem.None?
    ensures evt.PointerUp? || evt.CanvasLeave? ==> r.proc.timer.None? && r.proc.activeElement.None?
  {
    match evt
    case PointerDown(target, client) => Out(Down(p, elem, target, client), [])
    case PointerMove(client, inRect) => Move(p, elem, client, inRect)
    case PointerUp(target, _, inRect) => Release(p, elem, target, inRect)
    case CanvasLeave(target, _, inRect) => Release(p, elem, target, inRect)
  }

  /** One input. The `add` handler tracks only elements of type 'shape'; the
      `del` handler forgets the element whatever it is. */
  function Step(p: Proc, i: Input): (r: Out)
    requires Valid(p) && Enabled(p, i)
    ensures Valid(r.proc)
    ensures r.proc.elems.Keys == p.elems.Keys
    ensures i.Added? && KindOf(p, i.id) == ShapeElem ==> r.proc == p.(shapes := p.shapes + {i.id})
    ensures i.Added? && KindOf(p, i.id) != ShapeElem ==> r.proc == p
    ensures i.Deleted? ==> r.proc == p.(shapes := p.shapes - {i.id})
    ensures i.TimerFire? ==> r.proc.selectRect.Some? && r.proc.timer.None? && r.proc.selectedShapes.None?
  {
    match i
    case Added(id) =>
      Out(if KindOf(p, id) == ShapeElem then p.(shapes := p.shapes + {id}) else p, [])
    case Deleted(id) =>
      Out(p.(shapes := p.shapes - {id}), [])
    case Offered(elem, evt) =>
      var (accepted, p1) := CanProcess(p, elem);
      if accepted then Process(p1, elem, evt) else Out(p1, [])
    case TimerFire(centerAttr) =>
      Out(FireTimer(p, centerAttr), [])
  }
}

=== FILE: canvas_selec_runs.dfy ===
/** Runs of the canvas selection processor over sequences of inputs, and the
    gesture-level properties: a move cancels the long press for the rest of the
    gesture, a click on the canvas deselects, a drag is not a click, a long
    press and drag selects what the rectangle covers, and a drag that starts on
    a selected shape moves the whole selection. */
module CanvasSelecRuns {
  import opened Common
  import opened CanvasSelec
  import SelectRect

  /** Every input of the run is enabled in the state it reaches. */
  predicate Admissible(p: Proc, ins: seq<Input>)
    requires Valid(p)
    decreases |ins|
  {
    ins == [] || (Enabled(p, ins[0]) && Admissible(Step(p, ins[0]).proc, ins[1..]))
  }

  /** The final state of a run and every call it made, in order. The
      invariant holds throughout: in particular a selection is never empty. */
  function Run(p: Proc, ins: seq<Input>): (r: Out)
    requires Valid(p) && Admissible(p, ins)
    ensures Valid(r.proc)
    ensures r.proc.elems.Keys == p.elems.Keys
    ensures r.proc.selectedShapes.Some? ==> r.proc.selectedShapes.value != {}
    decreases |ins|
  {
    if ins == [] then Out(p, [])
    else
      var first := Step(p, ins[0]);
      var rest := Run(first.proc, ins[1..]);
      Out(rest.proc, first.calls + rest.calls)
  }

  /** No input of the sequence is a press offered to the processor. */
  predicate NoPress(ins: seq<Input>) {
    forall i :: 0 <= i < |ins| ==> !(ins[i].Offered? && ins[i].evt.PointerDown?)
  }

  /** With no timer pending and no press remembered, and no new press, the
      long-press callback never runs, no rectangle opens, and no release takes
      the click branch. */
  lemma {:induction false} NoPressKeepsLongPressIdle(p: Proc, ins: seq<Input>)
    requires Valid(p) && p.timer.None? && p.downElem.None?
    requires Admissible(p, ins) && NoPress(ins)
    ensures forall i :: 0 <= i < |ins| ==> !ins[i].TimerFire?
    ensures Run(p, ins).proc.timer.None? && Run(p, ins).proc.downElem.None?
    ensures p.selectRect.None? ==> Run(p, ins).proc.selectRect.None?
    decreases |ins|
  {
    if ins != [] {
      var q := Step(p, ins[0]).proc;
      assert !ins[0].TimerFire?;
      assert q.timer.None? && q.downElem.None?;
      assert p.selectRect.None? ==> q.selectRect.None?;
      assert NoPress(ins[1..]) by {
        forall i | 0 <= i < |ins[1..]|
          ensures !(ins[1..][i].Offered? && ins[1..][i].evt.PointerDown?)
        {
          assert ins[1..][i] == ins[i + 1];
        }
      }
      NoPressKeepsLongPressIdle(q, ins[1..]);
      forall i | 0 <= i < |ins|
        ensures !ins[i].TimerFire?
      {
        if i > 0 {
          assert ins[i] == ins[1..][i - 1];
        }
      }
    }
  }

  /** A move delivered to the processor before the long press fires cancels it
      for the rest of the gesture: unless a new press arrives, the callback
      never runs and the rectangle never opens. */
  lemma {:induction false} MoveCancelsLongPress(p: Proc, elem: ElemId, client: Point, inRect: set<ElemId>, rest: seq<Input>)
    requires Valid(p) && elem in p.elems && KindOf(p, elem) == CanvasElem
    requires Admissible(p, [Offered(elem, PointerMove(client, inRect))] + rest)
    requires NoPress(rest)
    requires p.selectRect.None?
    ensures forall i :: 0 <= i < |rest| ==> !rest[i].TimerFire?
    ensures Run(p, [Offered(elem, PointerMove(client, inRect))] + rest).proc.selectRect.None?
  {
    var ins := [Offered(elem, PointerMove(client, inRect))] + rest;
    assert ins[1..] == rest;
    var q := Step(p, ins[0]).proc;
    assert q.timer.None? && q.downElem.None? && q.selectRect.None?;
    NoPressKeepsLongPressIdle(q, rest);
  }

  /** A press and release on the canvas with no move in between deselects:
      the selection is dropped and its shapes lose `highlighted`. */
  lemma ClickOnCanvasDeselects(p: Proc, c: ElemId, a: Point, b: Point, inRect: set<ElemId>)
    requires Valid(p) && c in p.elems && KindOf(p, c) == CanvasElem
    ensures Enabled(p, Offered(c, PointerDown(c, a)))
    ensures var o1 := Step(p, Offered(c, PointerDown(c, a)));
      && o1.calls == []
      && Enabled(o1.proc, Offered(c, PointerUp(c, b, inRect)))
      && var o2 := Step(o1.proc, Offered(c, PointerUp(c, b, inRect)));
      && o2.proc.selectedShapes.None? && o2.proc.timer.None? && o2.proc.downElem.None? && o2.calls == []
      && (p.selectedShapes.Some? ==> forall id :: id in p.selectedShapes.value ==> Highlighted !in o2.proc.elems[id].state)
  {
    PressOnCanvasArms(p, c, a);
    var o1 := Step(p, Offered(c, PointerDown(c, a)));
    assert o1.proc.selectedShapes == p.selectedShapes && o1.proc.elems == p.elems;
    var (accepted, q) := CanProcess(o1.proc, c);
    assert accepted && q == o1.proc;
  }

  /** A press, a move and a release on the canvas, not on a selected shape, is
      a pan: it moves and then ends the move of the canvas, and leaves the
      selection as it was. */
  lemma DragIsNotClick(p: Proc, c: ElemId, a: Point, b: Point, h1: set<ElemId>, h2: set<ElemId>)
    requires Valid(p) && c in p.elems && KindOf(p, c) == CanvasElem
    requires p.selectRect.None?
    requires p.selectedShapes.None? || c !in p.selectedShapes.value
    ensures Enabled(p, Offered(c, PointerDown(c, a)))
    ensures var o1 := Step(p, Offered(c, PointerDown(c, a)));
      && o1.calls == []
      && Enabled(o1.proc, Offered(c, PointerMove(b, h1)))
      && var o2 := Step(o1.proc, Offered(c, PointerMove(b, h1)));
      && o2.calls == [ShapeMove({c}, b)]
      && Enabled(o2.proc, Offered(c, PointerUp(c, b, h2)))
      && var o3 := Step(o2.proc, Offered(c, PointerUp(c, b, h2)));
      && o3.calls == [ShapeMoveEnd({c})]
      && o3.proc.selectedShapes == p.selectedShapes && o3.proc.elems == p.elems
      && o3.proc.timer.None? && o3.proc.selectRect.None?
  {
    PressOnCanvasArms(p, c, a);
    var o1 := Step(p, Offered(c, PointerDown(c, a)));
    assert !o1.proc.isDownOnSelectedShape && o1.proc.selectRect.None?;
    assert o1.proc.selectedShapes == p.selectedShapes && o1.proc.elems == p.elems;
    var (accepted1, q1) := CanProcess(o1.proc, c);
    assert accepted1 && q1 == o1.proc;
    var o2 := Step(o1.proc, Offered(c, PointerMove(b, h1)));
    assert o2.proc == Move(o1.proc, c, b, h1).proc;
    var (accepted2, q2) := CanProcess(o2.proc, c);
    assert accepted2 && q2 == o2.proc;
  }

  /** A press on the canvas arms the long press and changes nothing tracked. */
  lemma PressOnCanvasArms(p: Proc, c: ElemId, a: Point)
    requires Valid(p) && c in p.elems && KindOf(p, c) == CanvasElem
    ensures Enabled(p, Offered(c, PointerDown(c, a)))
    ensures var o := Step(p, Offered(c, PointerDown(c, a)));
      && o.calls == [] && o.proc.timer == Some(TimerArgs(c, a)) && o.proc.downElem == Some(c)
      && o.proc.shapes == p.shapes && o.proc.elems == p.elems
      && o.proc.selectedShapes == p.selectedShapes && o.proc.selectRect == p.selectRect
      && o.proc.isDownOnSelectedShape == (p.selectedShapes.Some? && c in p.selectedShapes.value)
  {
    var (accepted, p1) := CanProcess(p, c);
    assert accepted && p1 == p;
  }

  /** The long-press callback opens the rectangle. */
  lemma FireOpensRect(p: Proc, attr: ElemId -> Point)
    requires Valid(p) && p.timer.Some?
    ensures Enabled(p, TimerFire(attr))
    ensures var o := Step(p, TimerFire(attr));
      && o.calls == [] && o.proc.selectRect == Some(SelectRect.RectCreate(p.timer.value.down))
      && o.proc.downElem == p.downElem && o.proc.selectedShapes.None?
      && o.proc.shapes == p.shapes && o.proc.elems.Keys == p.elems.Keys
      && (forall id :: id in p.elems ==> o.proc.elems[id].kind == p.elems[id].kind)
  {
  }

  /** A move on the canvas while the rectangle is open keeps it open and
      forgets the press. */
  lemma MoveKeepsRect(p: Proc, c: ElemId, b: Point, h: set<ElemId>)
    requires Valid(p) && c in p.elems && KindOf(p, c) == CanvasElem && p.selectRect.Some?
    ensures Enabled(p, Offered(c, PointerMove(b, h)))
    ensures var o := Step(p, Offered(c, PointerMove(b, h)));
      && o.calls == [] && o.proc.selectRect.Some? && o.proc.downElem.None?
      && o.proc.shapes == p.shapes && o.proc.elems.Keys == p.elems.Keys
      && (forall id :: id in p.elems ==> o.proc.elems[id].kind == p.elems[id].kind)
  {
    var (accepted, p1) := CanProcess(p, c);
    assert accepted && p1 == p;
  }

  /** A release on the canvas while a rectangle is open and no press is
      remembered finalises the rectangle. */
  lemma ReleaseEndsSelect(q: Proc, c: ElemId, b: Point, h: set<ElemId>)
    requires Valid(q) && c in q.elems && KindOf(q, c) == CanvasElem
    requires q.selectRect.Some? && q.downElem.None?
    ensures Enabled(q, Offered(c, PointerUp(c, b, h)))
    ensures var o := Step(q, Offered(c, PointerUp(c, b, h)));
      && o.calls == []
      && o.proc.selectRect.None? && o.proc.timer.None?
      && (forall id :: id in q.shapes ==> (Highlighted in o.proc.elems[id].state <==> id in h))
      && (o.proc.selectedShapes.None? <==> q.shapes * h == {})
      && (o.proc.selectedShapes.Some? ==> o.proc.selectedShapes.value == q.shapes * h)
  {
    var (accepted, q1) := CanProcess(q, c);
    assert accepted && q1 == q;
  }

  /** Long press on the canvas, then a move: the rectangle is open and the
      press is forgotten. */
  lemma LongPressThenMove(p: Proc, c: ElemId, a: Point, attr: ElemId -> Point, b: Point, h: set<ElemId>)
    requires Valid(p) && c in p.elems && KindOf(p, c) == CanvasElem
    ensures Enabled(p, Offered(c, PointerDown(c, a)))
    ensures var o1 := Step(p, Offered(c, PointerDown(c, a)));
      && Enabled(o1.proc, TimerFire(attr))
      && var o2 := Step(o1.proc, TimerFire(attr));
      && Enabled(o2.proc, Offered(c, PointerMove(b, h)))
      && var o3 := Step(o2.proc, Offered(c, PointerMove(b, h)));
      && o1.calls + o2.calls + o3.calls == []
      && o3.proc.selectRect.Some? && o3.proc.downElem.None?
      && o3.proc.shapes == p.shapes && c in o3.proc.elems && KindOf(o3.proc, c) == CanvasElem
  {
    PressOnCanvasArms(p, c, a);
    var o1 := Step(p, Offered(c, PointerDown(c, a)));
    FireOpensRect(o1.proc, attr);
    var o2 := Step(o1.proc, TimerFire(attr));
    MoveKeepsRect(o2.proc, c, b, h);
  }

  /** Long press on the canvas, drag, release: the tracked shapes whose
      centres the final rectangle covers become highlighted and are the new
      selection (none at all when the rectangle covers none), and the
      rectangle is gone. */
  lemma LongPressThenDragSelects(p: Proc, c: ElemId, a: Point, attr: ElemId -> Point,
                                 b: Point, h1: set<ElemId>, h2: set<ElemId>)
    requires Valid(p) && c in p.elems && KindOf(p, c) == CanvasElem
    ensures Enabled(p, Offered(c, PointerDown(c, a)))
    ensures var o1 := Step(p, Offered(c, PointerDown(c, a)));
      && Enabled(o1.proc, TimerFire(attr))
      && var o2 := Step(o1.proc, TimerFire(attr));
      && Enabled(o2.proc, Offered(c, PointerMove(b, h1)))
      && var o3 := Step(o2.proc, Offered(c, PointerMove(b, h1)));
      && Enabled(o3.proc, Offered(c, PointerUp(c, b, h2)))
      && var o4 := Step(o3.proc, Offered(c, PointerUp(c, b, h2)));
      && o1.calls + o2.calls + o3.calls + o4.calls == []
      && o4.proc.selectRect.None? && o4.proc.timer.None?
      && (forall id :: id in p.shapes ==> (Highlighted in o4.proc.elems[id].state <==> id in h2))
      && (o4.proc.selectedShapes.None? <==> p.shapes * h2 == {})
      && (o4.proc.selectedShapes.Some? ==> o4.proc.selectedShapes.value == p.shapes * h2)
  {
    LongPressThenMove(p, c, a, attr, b, h1);
    var o3 := Step(Step(Step(p, Offered(c, PointerDown(c, a))).proc, TimerFire(attr)).proc, Offered(c, PointerMove(b, h1)));
    ReleaseEndsSelect(o3.proc, c, b, h2);
  }

  /** A long press released without a move takes the click branch: the
      selection is cleaned but the rectangle opened by the callback stays. */
  lemma LongPressWithoutMoveLeavesRect(p: Proc, c: ElemId, a: Point, attr: ElemId -> Point, h: set<ElemId>)
    requires Valid(p) && c in p.elems && KindOf(p, c) == CanvasElem
    ensures Enabled(p, Offered(c, PointerDown(c, a)))
    ensures var o1 := Step(p, Offered(c, PointerDown(c, a)));
      && Enabled(o1.proc, TimerFire(attr))
      && var o2 := Step(o1.proc, TimerFire(attr));
      && Enabled(o2.proc, Offered(c, PointerUp(c, a, h)))
      && var o3 := Step(o2.proc, Offered(c, PointerUp(c, a, h)));
      && o3.proc.selectRect == Some(SelectRect.RectCreate(a))
      && o3.proc.selectedShapes.None? && o3.calls == []
  {
    PressOnCanvasArms(p, c, a);
    var o1 := Step(p, Offered(c, PointerDown(c, a)));
    FireOpensRect(o1.proc, attr);
    var o2 := Step(o1.proc, TimerFire(attr));
    var (accepted, q) := CanProcess(o2.proc, c);
    assert accepted && q == o2.proc;
  }

  /** A press, move and release on a selected shape moves every selected shape
      and ends their move, keeping the selection. */
  lemma GroupDrag(p: Proc, s: ElemId, a: Point, b: Point, h1: set<ElemId>, h2: set<ElemId>)
    requires Valid(p) && p.selectedShapes.Some? && s in p.selectedShapes.value
    ensures Enabled(p, Offered(s, PointerDown(s, a)))
    ensures var o1 := Step(p, Offered(s, PointerDown(s, a)));
      && Enabled(o1.proc, Offered(s, PointerMove(b, h1)))
      && var o2 := Step(o1.proc, Offered(s, PointerMove(b, h1)));
      && Enabled(o2.proc, Offered(s, PointerUp(s, b, h2)))
      && var o3 := Step(o2.proc, Offered(s, PointerUp(s, b, h2)));
      && o1.calls + o2.calls + o3.calls == [ShapeMove(p.selectedShapes.value, b), ShapeMoveEnd(p.selectedShapes.value)]
      && o3.proc.selectedShapes == p.selectedShapes && !o3.proc.isDownOnSelectedShape
  {
    var sel := p.selectedShapes.value;
    var (accepted1, q1) := CanProcess(p, s);
    assert accepted1 && q1 == p;
    var o1 := Step(p, Offered(s, PointerDown(s, a)));
    assert o1.calls == [];
    assert o1.proc.isDownOnSelectedShape && o1.proc.selectedShapes == Some(sel) && o1.proc.selectRect.None?;
    var (accepted2, q2) := CanProcess(o1.proc, s);
    assert accepted2 && q2 == o1.proc;
    var o2 := Step(o1.proc, Offered(s, PointerMove(b, h1)));
    assert o2.calls == [ShapeMove(sel, b)];
    var (accepted3, q3) := CanProcess(o2.proc, s);
    assert accepted3 && q3 == o2.proc;
    var o3 := Step(o2.proc, Offered(s, PointerUp(s, b, h2)));
    assert o3.calls == [ShapeMoveEnd(sel)];
  }
}

=== FILE: common.dfy ===
/** Types shared by every part of the interaction engine: optional values,
    integer points, element identities and kinds, and the element state flags. */
module Common {

  /** A nullable reference or value (`null` in the JavaScript). */
  datatype Option<+T> = None | Some(value: T) {
    function GetOr(default: T): T {
      match this
      case Some(v) => v
      case None => default
    }
  }

  /** A point in the coordinate space of whatever element it belongs to. */
  datatype Point = Point(x: int, y: int)

  function Plus(a: Point, b: Point): Point {
    Point(a.x + b.x, a.y + b.y)
  }

  /** Diagram elements are compared by object identity; the model gives each one an id. */
  type ElemId = nat

  /** The `type` tag every diagram element carries: 'canvas', 'shape' or 'path'. */
  datatype ElemType = CanvasElem | ShapeElem | PathElem

  /** Entries of an element's state set. The four named flags are the ones the
      presenter renders as CSS classes; any other string may be stored as well. */
  datatype StateFlag = Selected | Hovered | Disabled | Highlighted | OtherFlag(name: string)

  /** The flags that `update` mirrors onto the rendered element. */
  const Recognised: set<StateFlag> := {Selected, Hovered, Disabled, Highlighted}
}

=== FILE: long_press_timer.dfy ===
/** The long-press timer bookkeeping of the canvas processor, modelled against a
    table of scheduled callbacks so that a callback the processor has lost track
    of can be seen. The canvas processor itself abstracts a timer table that
    satisfies `AtMostOneLive` into a single optional slot. */
module LongPressTimer {
  import opened Common

  /** `handle` is the processor's `_timer` field, `live` the ids of callbacks
      still scheduled, `next` the id the next `setTimeout` returns (ids start
      at 1, so a handle is never falsy). */
  datatype Timers = Timers(handle: Option<nat>, live: set<nat>, next: nat)

  const NoTimers: Timers := Timers(None, {}, 1)

  /** Every scheduled callback can be cancelled through the handle. */
  predicate AtMostOneLive(t: Timers) {
    t.live == {} || (t.handle.Some? && t.live == {t.handle.value})
  }

  /** `_timerDel`: cancel the callback the handle names, then forget the handle. */
  function TimerDel(t: Timers): (r: Timers)
    ensures r.handle.None?
    ensures t.handle.None? ==> r.live == t.live
    ensures t.handle.Some? ==> r.live == t.live - {t.handle.value}
  {
    Timers(None, if t.handle.Some? then t.live - {t.handle.value} else t.live, t.next)
  }

  /** `pointerdown` on the canvas as written: a new callback is scheduled and its
      handle overwrites the old one, which is not cancelled. */
  function ArmAsWritten(t: Timers): (r: Timers)
    ensures r.handle == Some(t.next)
    ensures r.live == t.live + {t.next}
    ensures r.next == t.next + 1
  {
    Timers(Some(t.next), t.live + {t.next}, t.next + 1)
  }

  /** The callback `id` runs: it is no longer scheduled, and its first action is
      `_timerDel`, which cancels whatever the handle names at that moment. */
  function Fire(t: Timers, id: nat): (r: Timers)
    requires id in t.live
    ensures id !in r.live && r.handle.None?
    ensures r.live <= t.live
    ensures t.handle.Some? ==> t.handle.value !in r.live
    ensures forall x :: x in t.live && x != id && Some(x) != t.handle ==> x in r.live
    ensures r.next == t.next
  {
    TimerDel(t.(live := t.live - {id}))
  }

  /** The discrepancy: two presses on the canvas with no move or release in
      between, then a release. The release cancels only the second callback;
      the first one stays scheduled, no handle names it, and so no later
      `_timerDel` (a second release or `canvasleave`) can cancel it. */
  lemma OverwrittenTimerOutlivesRelease()
    ensures var t := TimerDel(ArmAsWritten(ArmAsWritten(NoTimers)));
      && t.live == {1}
      && t.handle.None?
      && TimerDel(t).live == {1}
  {
  }

  /** `pointerdown` on the canvas corrected: cancel the pending callback before
      scheduling a new one. */
  function ArmFixed(t: Timers): (r: Timers)
    requires AtMostOneLive(t)
    ensures AtMostOneLive(r)
    ensures r.live == {t.next}
  {
    ArmAsWritten(TimerDel(t))
  }

  /** With the corrected arming, `_timerDel` always leaves nothing scheduled,
      and a firing callback leaves nothing scheduled either. */
  lemma TimerDelCancelsAll(t: Timers)
    requires AtMostOneLive(t)
    ensures TimerDel(t).live == {}
    ensures forall id :: id in t.live ==> Fire(t, id).live == {}
  {
  }

  /** What can happen to the timer table: the processor arms or cancels, or a
      scheduled callback fires. */
  datatype TimerOp = Arm | Cancel | FireCallback(id: nat)

  predicate CanApply(t: Timers, op: TimerOp) {
    op.FireCallback? ==> op.id in t.live
  }

  function ApplyFixed(t: Timers, op: TimerOp): (r: Timers)
    requires AtMostOneLive(t) && CanApply(t, op)
    ensures AtMostOneLive(r)
  {
    match op
    case Arm => ArmFixed(t)
    case Cancel => TimerDel(t)
    case FireCallback(id) => Fire(t, id)
  }

  /** Any run of the corrected operations keeps at most one callback live, so a
      cancel at the end of a gesture never strands one. `None` when the run
      fires a callback that is not scheduled. */
  function RunFixed(t: Timers, ops: seq<TimerOp>): (r: Option<Timers>)
    requires AtMostOneLive(t)
    ensures r.Some? ==> AtMostOneLive(r.value) && TimerDel(r.value).live == {}
    decreases |ops|
  {
    if ops == [] then Some(t)
    else if !CanApply(t, ops[0]) then None
    else RunFixed(ApplyFixed(t, ops[0]), ops[1..])
  }
}

=== FILE: menu_shape.dfy ===
/** The palette drag controller: press a template icon, drag out of the panel,
    and a shape-creation request is sent when the pointer leaves the panel.
    Touch input gives no reliable leave, so every move asks which element is
    under the pointer (an input here) and requests pointer capture when the
    pointer moves off the element it was pressed on. */
module MenuShape {
  import opened Common

  /** `pressedKey` is the `data-cmd-arg` of the pressed icon, `parentElem` the
      element under the pointer at the press, `pointElem` the last element seen
      under it, `nativeLeave` whether a real `pointerleave` has arrived. Elements
      are `None` before the first press, when `elementFromPoint` found nothing,
      or after a clean-up. */
  datatype Menu = Menu(
    pressedKey: Option<string>,
    parentElem: Option<ElemId>,
    pointElem: Option<ElemId>,
    nativeLeave: bool)

  /** `underPointer` is what `document.elementFromPoint` returns at the event's
      client point; `cmdArg` is the pressed icon's `data-cmd-arg` attribute. */
  datatype Event =
    | PointerDown(cmdArg: Option<string>, underPointer: Option<ElemId>)
    | PointerMove(pointerId: int, underPointer: Option<ElemId>)
    | PointerLeave(client: Point)
    | PointerUp

  /** What the controller asks of the diagram. */
  datatype Request =
    | SetPointerCapture(pointerId: int)
    | ShapeActiveAdd(templateKey: string, position: Point, props: map<string, map<string, string>>)

  datatype Out = Out(menu: Menu, requests: seq<Request>)

  /** The properties every created shape starts with. */
  const TitleProps: map<string, map<string, string>> := map["text" := map["textContent" := "Title"]]

  /** The pressed key is truthy: set and not the empty string. */
  predicate Pressed(m: Menu) {
    m.pressedKey.Some? && m.pressedKey.value != ""
  }

  /** `_clean`: forget the press; the leave flag is kept. */
  function Clean(m: Menu): (r: Menu)
    ensures r.pressedKey.None? && r.parentElem.None? && r.pointElem.None?
    ensures r.nativeLeave == m.nativeLeave
  {
    m.(pressedKey := None, parentElem := None, pointElem := None)
  }

  /** `handleEvent`. */
  function HandleEvent(m: Menu, e: Event): (r: Out)
    ensures e.PointerDown? ==>
      && r.requests == []
      && r.menu == Menu(e.cmdArg, e.underPointer, e.underPointer, false)
    ensures e.PointerMove? && m.nativeLeave ==> r == Out(m, [])
    ensures e.PointerMove? && !m.nativeLeave && e.underPointer == m.pointElem ==> r == Out(m, [])
    ensures e.PointerMove? && !m.nativeLeave && e.underPointer != m.pointElem ==>
      && r.menu == m.(pointElem := e.underPointer)
      && (r.requests == [SetPointerCapture(e.pointerId)] <==> m.parentElem == m.pointElem)
      && (r.requests == [] <==> m.parentElem != m.pointElem)
    ensures e.PointerLeave? ==>
      && r.menu.nativeLeave && r.menu.pressedKey.None?
      && r.menu.parentElem.None? && r.menu.pointElem.None?
    ensures e.PointerLeave? && Pressed(m) ==>
      r.requests == [ShapeActiveAdd(m.pressedKey.value, e.client, TitleProps)]
    ensures e.PointerLeave? && !Pressed(m) ==> r.requests == []
    ensures e.PointerUp? ==> r == Out(Clean(m), [])
  {
    match e
    case PointerMove(pointerId, pointElem) =>
      if m.nativeLeave || pointElem == m.pointElem then Out(m, [])
      else
        var capture := if m.parentElem == m.pointElem then [SetPointerCapture(pointerId)] else [];
        Out(m.(pointElem := pointElem), capture)
    case PointerLeave(client) =>
      var m1 := m.(nativeLeave := true);
      var add := if Pressed(m1) then [ShapeActiveAdd(m1.pressedKey.value, client, TitleProps)] else [];
      Out(Clean(m1), add)
    case PointerDown(cmdArg, underPointer) =>
      Out(Menu(cmdArg, underPointer, underPointer, false), [])
    case PointerUp =>
      Out(Clean(m), [])
  }

  /** The final state of a sequence of events and every request, in order. */
  function Run(m: Menu, es: seq<Event>): (r: Out)
    decreases |es|
  {
    if es == [] then Out(m, [])
    else
      var first := HandleEvent(m, es[0]);
      var rest := Run(first.menu, es[1..]);
      Out(rest.menu, first.requests + rest.requests)
  }

  function CountAdds(rs: seq<Request>): (n: nat)
    ensures n <= |rs|
    ensures n == 0 <==> forall i :: 0 <= i < |rs| ==> !rs[i].ShapeActiveAdd?
  {
    if rs == [] then 0
    else (if rs[0].ShapeActiveAdd? then 1 else 0) + CountAdds(rs[1..])
  }

  lemma {:induction false} CountAddsAppend(a: seq<Request>, b: seq<Request>)
    ensures CountAdds(a + b) == CountAdds(a) + CountAdds(b)
    decreases |a|
  {
    if a == [] {
      assert a + b == b;
    } else {
      assert (a + b)[1..] == a[1..] + b;
      CountAddsAppend(a[1..], b);
    }
  }

  predicate NoPress(es: seq<Event>) {
    forall i :: 0 <= i < |es| ==> !es[i].PointerDown?
  }

  /** Without a new press, the events of a gesture emit at most one creation
      request, and none at all once the key is no longer pressed. */
  lemma {:induction false} AtMostOneCreation(m: Menu, es: seq<Event>)
    requires NoPress(es)
    ensures CountAdds(Run(m, es).requests) <= (if Pressed(m) then 1 else 0)
    decreases |es|
  {
    if es != [] {
      var first := HandleEvent(m, es[0]);
      assert NoPress(es[1..]) by {
        forall i | 0 <= i < |es[1..]| ensures !es[1..][i].PointerDown? {
          assert es[1..][i] == es[i + 1];
        }
      }
      AtMostOneCreation(first.menu, es[1..]);
      CountAddsAppend(first.requests, Run(first.menu, es[1..]).requests);
      match es[0]
      case PointerLeave(_) =>
        assert !Pressed(first.menu);
      case PointerUp =>
        assert !Pressed(first.menu);
      case PointerMove(_, _) =>
        assert first.menu.pressedKey == m.pressedKey;
        assert CountAdds(first.requests) == 0;
    }
  }

  /** Each press starts at most one creation request, however the gesture goes on. */
  lemma AtMostOneCreationPerPress(m: Menu, cmdArg: Option<string>, under: Option<ElemId>, es: seq<Event>)
    requires NoPress(es)
    ensures CountAdds(Run(m, [PointerDown(cmdArg, under)] + es).requests) <= 1
  {
    var down := PointerDown(cmdArg, under);
    assert ([down] + es)[1..] == es;
    var m1 := HandleEvent(m, down).menu;
    AtMostOneCreation(m1, es);
    CountAddsAppend([], Run(m1, es).requests);
  }

  predicate OnlyMoves(es: seq<Event>) {
    forall i :: 0 <= i < |es| ==> es[i].PointerMove?
  }

  /** Moves keep the pressed key and the leave flag, and request nothing but capture. */
  lemma {:induction false} MovesKeepPress(m: Menu, es: seq<Event>)
    requires OnlyMoves(es)
    ensures Run(m, es).menu.pressedKey == m.pressedKey
    ensures Run(m, es).menu.nativeLeave == m.nativeLeave
    ensures CountAdds(Run(m, es).requests) == 0
    decreases |es|
  {
    if es != [] {
      assert OnlyMoves(es[1..]) by {
        forall i | 0 <= i < |es[1..]| ensures es[1..][i].PointerMove? {
          assert es[1..][i] == es[i + 1];
        }
      }
      var first := HandleEvent(m, es[0]);
      MovesKeepPress(first.menu, es[1..]);
      CountAddsAppend(first.requests, Run(first.menu, es[1..]).requests);
    }
  }

  lemma {:induction false} RunAppend(m: Menu, a: seq<Event>, b: seq<Event>)
    ensures Run(m, a + b).menu == Run(Run(m, a).menu, b).menu
    ensures Run(m, a + b).requests == Run(m, a).requests + Run(Run(m, a).menu, b).requests
    decreases |a|
  {
    if a == [] {
      assert a + b == b;
    } else {
      var e := a[0];
      assert (a + b)[0] == e && (a + b)[1..] == a[1..] + b;
      var first := HandleEvent(m, e);
      RunAppend(first.menu, a[1..], b);
      var tail := Run(first.menu, a[1..]);
      var rest := Run(tail.menu, b);
      assert first.requests + (tail.requests + rest.requests) == (first.requests + tail.requests) + rest.requests;
    }
  }

  /** Press an icon whose key is non-empty, drag, leave the panel: exactly one
      creation request, for that key, at the leave point, titled 'Title'. */
  lemma DragOutCreatesOne(m: Menu, key: string, under: Option<ElemId>, moves: seq<Event>, at: Point)
    requires key != ""
    requires OnlyMoves(moves)
    ensures var r := Run(m, [PointerDown(Some(key), under)] + moves + [PointerLeave(at)]);
      && CountAdds(r.requests) == 1
      && r.requests[|r.requests| - 1] == ShapeActiveAdd(key, at, TitleProps)
      && r.menu.pressedKey.None? && r.menu.nativeLeave
  {
    var down := PointerDown(Some(key), under);
    var m1 := HandleEvent(m, down).menu;
    assert Run(m, [down]) == Out(m1, []) by {
      assert [down][1..] == [];
    }
    MovesKeepPress(m1, moves);
    var mid := Run(m1, moves);
    assert Pressed(mid.menu);
    RunAppend(m, [down], moves);
    assert Run(m, [down] + moves) == mid;
    var leave := HandleEvent(mid.menu, PointerLeave(at));
    assert leave.requests == [ShapeActiveAdd(key, at, TitleProps)];
    assert Run(mid.menu, [PointerLeave(at)]) == leave by {
      assert [PointerLeave(at)][1..] == [];
      assert leave.requests + [] == leave.requests;
    }
    RunAppend(m, [down] + moves, [PointerLeave(at)]);
    var r := Run(m, [down] + moves + [PointerLeave(at)]);
    assert r.requests == mid.requests + leave.requests;
    CountAddsAppend(mid.requests, leave.requests);
    assert CountAdds(leave.requests) == 1;
  }

  /** Press, drag within the panel, release: no creation request at all. */
  lemma ReleaseInsideCreatesNothing(m: Menu, cmdArg: Option<string>, under: Option<ElemId>, moves: seq<Event>)
    requires OnlyMoves(moves)
    ensures var r := Run(m, [PointerDown(cmdArg, under)] + moves + [PointerUp]);
      && CountAdds(r.requests) == 0
      && r.menu.pressedKey.None? && r.menu.parentElem.None? && r.menu.pointElem.None?
  {
    var down := PointerDown(cmdArg, under);
    var m1 := HandleEvent(m, down).menu;
    MovesKeepPress(m1, moves);
    var m2 := Run(m1, moves).menu;
    RunAppend(m, [down], moves);
    RunAppend(m, [down] + moves, [PointerUp]);
    assert [down][1..] == [];
    assert [PointerUp][1..] == [];
    assert Run(m, [down]).requests == [];
    CountAddsAppend(Run(m1, moves).requests, []);
    CountAddsAppend([], Run(m1, moves).requests);
  }

  /** After a leave, a second leave emits nothing and moves change nothing,
      until the next press resets the flag. */
  lemma AfterLeaveInert(m: Menu, a: Point, b: Point, pointerId: int, under: Option<ElemId>)
    ensures HandleEvent(HandleEvent(m, PointerLeave(a)).menu, PointerLeave(b)).requests == []
    ensures var m1 := HandleEvent(m, PointerLeave(a)).menu;
      HandleEvent(m1, PointerMove(pointerId, under)) == Out(m1, [])
  {
  }

  /** There is no press guard on the move branch: after a release the
      controller has parent and last-seen both unset, so the first move onto
      any element requests capture although nothing is pressed. */
  lemma HoverAfterReleaseRequestsCapture(m: Menu, pointerId: int, e: ElemId)
    requires !m.nativeLeave
    ensures var m1 := HandleEvent(m, PointerUp).menu;
      HandleEvent(m1, PointerMove(pointerId, Some(e))).requests == [SetPointerCapture(pointerId)]
  {
  }
}

=== FILE: path_evt_proc.dfy ===
/** The path processor: accepts only paths, selects the path on release and
    clears its `selected` flag when told it lost the selection. */
module PathEvtProc {
  import opened Common

  /** The event types the processor can be handed; only two of them matter. */
  datatype EventType = PointerUp | Unselect | OtherEvent(name: string)

  /** What the processor can touch: the diagram's singular `selected`
      reference and the state set of the path it is processing. */
  datatype World = World(selected: Option<ElemId>, pathState: set<StateFlag>)

  /** `canProcess`: a pure test of the element type. */
  function CanProcess(kind: ElemType): (r: bool)
    ensures r <==> kind == PathElem
  {
    kind == PathElem
  }

  /** `process(path, evt)`. */
  function Process(w: World, path: ElemId, evt: EventType): (r: World)
    ensures evt == PointerUp ==> r.selected == Some(path) && r.pathState == w.pathState
    ensures evt == Unselect ==> r.selected == w.selected
    ensures evt == Unselect ==> Selected !in r.pathState
    ensures evt == Unselect ==> forall f :: f != Selected ==> (f in r.pathState <==> f in w.pathState)
    ensures evt.OtherEvent? ==> r == w
  {
    match evt
    case PointerUp => w.(selected := Some(path))
    case Unselect => w.(pathState := w.pathState - {Selected})
    case OtherEvent(_) => w
  }

  /** A release followed by an unselect leaves the path as the diagram's
      selection but without its `selected` flag: the two events are independent. */
  lemma ReleaseThenUnselect(w: World, path: ElemId)
    ensures Process(Process(w, path, PointerUp), path, Unselect).selected == Some(path)
    ensures Selected !in Process(Process(w, path, PointerUp), path, Unselect).pathState
  {
  }

  /** Unselecting twice is the same as unselecting once. */
  lemma UnselectIdempotent(w: World, path: ElemId)
    ensures Process(Process(w, path, Unselect), path, Unselect) == Process(w, path, Unselect)
  {
  }
}

=== FILE: select_rect.dfy ===
/** The rubber-band rectangle of the canvas processor: created at the press point
    with a start marker, redrawn on every move. Only its geometry is modelled. */
module SelectRect {
  import opened Common

  /** `start` is the anchor point; `x`, `y`, `width`, `height` are the rendered
      attributes; `startMarker` says whether the start circle is still shown. */
  datatype Rect = Rect(start: Point, x: int, y: int, width: int, height: int, startMarker: bool)

  function Abs(n: int): nat {
    if n < 0 then -n else n
  }

  function Min(a: int, b: int): int {
    if a < b then a else b
  }

  /** The rendered rectangle contains point `p` (borders included). */
  predicate Covers(r: Rect, p: Point) {
    r.x <= p.x <= r.x + r.width && r.y <= p.y <= r.y + r.height
  }

  /** The rendered rectangle is exactly the box with corners `a` and `b`. */
  predicate Spans(r: Rect, a: Point, b: Point) {
    && r.x == Min(a.x, b.x) && r.width == Abs(a.x - b.x)
    && r.y == Min(a.y, b.y) && r.height == Abs(a.y - b.y)
  }

  /** `rectCreate`: a zero-sized rectangle at `pos`, with the start marker shown. */
  function RectCreate(pos: Point): (r: Rect)
    ensures r.start == pos && r.startMarker
    ensures Spans(r, pos, pos)
    ensures Covers(r, pos)
  {
    Rect(pos, pos.x, pos.y, 0, 0, true)
  }

  /** `rectDraw` as written: the size follows the pointer, but `x` and `y` are
      written only when the pointer is left of / above the start point, and are
      otherwise left at whatever value they had. */
  function RectDraw(r: Rect, client: Point): (r': Rect)
    ensures r'.start == r.start && !r'.startMarker
    ensures r'.width == Abs(client.x - r.start.x) && r'.height == Abs(client.y - r.start.y)
    ensures client.x - r.start.x < 0 ==> r'.x == client.x
    ensures client.x - r.start.x >= 0 ==> r'.x == r.x
    ensures client.y - r.start.y < 0 ==> r'.y == client.y
    ensures client.y - r.start.y >= 0 ==> r'.y == r.y
  {
    var dx := client.x - r.start.x;
    var dy := client.y - r.start.y;
    Rect(r.start,
         if dx < 0 then client.x else r.x,
         if dy < 0 then client.y else r.y,
         Abs(dx), Abs(dy), false)
  }

  /** The discrepancy: start at (100,100), drag left to (50,100), then right to
      (150,100). The rectangle keeps x = 50 and so spans 50..100: it no longer
      reaches the pointer, and does not span the start point and the pointer. */
  lemma RectDrawStaleCorner()
    ensures var r := RectDraw(RectDraw(RectCreate(Point(100, 100)), Point(50, 100)), Point(150, 100));
      && r.x == 50 && r.width == 50
      && !Covers(r, Point(150, 100))
      && !Spans(r, Point(100, 100), Point(150, 100))
  {
  }

  /** `rectDraw` corrected: the rectangle is the box between the start point and
      the pointer, whatever it was before. */
  function RectDrawFixed(r: Rect, client: Point): (r': Rect)
    ensures r'.start == r.start && !r'.startMarker
    ensures Spans(r', r.start, client)
    ensures Covers(r', r.start) && Covers(r', client)
  {
    Rect(r.start,
         Min(client.x, r.start.x), Min(client.y, r.start.y),
         Abs(client.x - r.start.x), Abs(client.y - r.start.y), false)
  }

  /** The as-written and corrected versions agree whenever the rectangle is
      still anchored at its start point, in particular on the first draw after
      `rectCreate`; they can only differ once the drag has crossed back. */
  lemma RectDrawAgreesWhenAnchored(r: Rect, client: Point)
    requires r.x == r.start.x && r.y == r.start.y
    ensures RectDraw(r, client) == RectDrawFixed(r, client)
  {
  }

  /** Where they do differ, it is the as-written version that fails to span. */
  lemma RectDrawWrongOnlyWhenStale(r: Rect, client: Point)
    requires RectDraw(r, client) != RectDrawFixed(r, client)
    ensures !Spans(RectDraw(r, client), r.start, client)
  {
  }
}

=== FILE: svg_shape.dfy ===
/** The element state model: one presenter shape (or the canvas), its state set,
    the classes its SVG element renders, and its connectors. `Update` is the only
    way a shape changes. */
module SvgShape {
  import opened Common

  /** Outward direction of a connector. */
  datatype Dir = Left | Right | Top | Bottom

  /** A connection point owned by a shape, keyed by a string in the shape's map.
      Connectors carry a state set of their own, so that hover can be cleared on them. */
  datatype Connector = Connector(innerPosition: Point, dir: Dir, state: set<StateFlag>)

  /** `position` is what `positionGet` reads back from the SVG element; `classes`
      is the class list of that element, of which `update` controls the four
      recognised flags. */
  datatype Shape = Shape(
    kind: ElemType,
    position: Point,
    state: set<StateFlag>,
    classes: set<StateFlag>,
    connectors: map<string, Connector>)

  /** Per-connector part of an update: only the fields present are written. */
  datatype ConnectorPatch = ConnectorPatch(innerPosition: Option<Point>, dir: Option<Dir>)

  /** The parameter of `update`; each part may independently be absent. */
  datatype Patch = Patch(
    position: Option<Point>,
    connectors: Option<map<string, ConnectorPatch>>,
    state: Option<set<StateFlag>>)

  /** The rendered classes agree with the state on every recognised flag. */
  predicate ClassesInSync(s: Shape) {
    s.classes * Recognised == s.state * Recognised
  }

  /** The constructor: empty state, type defaulting to 'shape', no connectors.
      `svgPosition` and `svgClasses` describe the SVG element it wraps. */
  function New(kind: Option<ElemType>, svgPosition: Point, svgClasses: set<StateFlag>): (s: Shape)
    ensures forall f :: !StateHas(s, f)
    ensures s.connectors == map[]
    ensures kind.None? ==> s.kind == ShapeElem
    ensures kind.Some? ==> s.kind == kind.value
    ensures s.position == svgPosition
    ensures svgClasses * Recognised == {} ==> ClassesInSync(s)
  {
    Shape(kind.GetOr(ShapeElem), svgPosition, {}, svgClasses, map[])
  }

  /** `stateHas(f)`: whether the flag is in the shape's state. On a shape whose
      classes are in sync, a rendered flag is set exactly when its class is on. */
  predicate StateHas(s: Shape, f: StateFlag): (r: bool)
    ensures ClassesInSync(s) && f in Recognised ==> (r <==> f in s.classes * Recognised)
  {
    f in s.state
  }

  /** A copy of the state set: as a value it cannot be used to change the shape. */
  function StateGet(s: Shape): (r: set<StateFlag>)
    ensures forall f :: f in r <==> StateHas(s, f)
  {
    s.state
  }

  /** The flags `update` walks, in the order it walks them. */
  const RenderedFlags: seq<StateFlag> := [Selected, Hovered, Disabled, Highlighted]

  /** One `stateClassSync` call: the class for `f` is on exactly when the state has `f`. */
  function StateClassSync(classes: set<StateFlag>, state: set<StateFlag>, f: StateFlag): set<StateFlag> {
    if f in state then classes + {f} else classes - {f}
  }

  /** The `for` loop over the rendered flags. */
  function ClassSync(classes: set<StateFlag>, state: set<StateFlag>, flags: seq<StateFlag>): (r: set<StateFlag>)
    ensures forall f :: f in flags ==> (f in r <==> f in state)
    ensures forall f :: f !in flags ==> (f in r <==> f in classes)
    decreases |flags|
  {
    if flags == [] then classes
    else ClassSync(StateClassSync(classes, state, flags[0]), state, flags[1..])
  }

  /** Every connector key that has a field to write must exist: the JavaScript
      dereferences the missing connector and throws. */
  predicate ConnectorsPatchable(cs: map<string, Connector>, cp: map<string, ConnectorPatch>) {
    forall k :: k in cp && (cp[k].innerPosition.Some? || cp[k].dir.Some?) ==> k in cs
  }

  predicate Applicable(s: Shape, p: Patch) {
    p.connectors.Some? ==> ConnectorsPatchable(s.connectors, p.connectors.value)
  }

  function MergeConnector(c: Connector, u: ConnectorPatch): Connector {
    c.(innerPosition := u.innerPosition.GetOr(c.innerPosition), dir := u.dir.GetOr(c.dir))
  }

  /** Non-destructive merge: only supplied fields of supplied keys change. */
  function MergeConnectors(cs: map<string, Connector>, cp: map<string, ConnectorPatch>): (r: map<string, Connector>)
    ensures r.Keys == cs.Keys
    ensures forall k :: k in cs && k !in cp ==> r[k] == cs[k]
    ensures forall k :: k in cs && k in cp ==>
      && r[k].innerPosition == (if cp[k].innerPosition.Some? then cp[k].innerPosition.value else cs[k].innerPosition)
      && r[k].dir == (if cp[k].dir.Some? then cp[k].dir.value else cs[k].dir)
      && r[k].state == cs[k].state
  {
    map k | k in cs :: if k in cp then MergeConnector(cs[k], cp[k]) else cs[k]
  }

  /** `shapeStateDel(connector, 'hovered')` on every connector. */
  function DropHover(cs: map<string, Connector>): (r: map<string, Connector>)
    ensures r.Keys == cs.Keys
    ensures forall k :: k in cs ==> Hovered !in r[k].state
    ensures forall k :: k in cs ==> r[k].state == cs[k].state - {Hovered}
    ensures forall k :: k in cs ==> r[k].innerPosition == cs[k].innerPosition && r[k].dir == cs[k].dir
  {
    map k | k in cs :: cs[k].(state := cs[k].state - {Hovered})
  }

  /** The state branch of `update`: replace the state, sync the four classes,
      and clear `hovered` on every connector unless the new state has it. */
  function ApplyState(s: Shape, st: set<StateFlag>): (r: Shape)
    ensures r.kind == s.kind && r.position == s.position && r.state == st
    ensures r.classes * Recognised == st * Recognised
    ensures r.classes - Recognised == s.classes - Recognised
    ensures r.connectors.Keys == s.connectors.Keys
    ensures forall k :: k in s.connectors ==>
      r.connectors[k].innerPosition == s.connectors[k].innerPosition && r.connectors[k].dir == s.connectors[k].dir
    ensures Hovered !in st ==> forall k :: k in s.connectors ==> r.connectors[k].state == s.connectors[k].state - {Hovered}
    ensures Hovered in st ==> r.connectors == s.connectors
  {
    var classes := ClassSync(s.classes, st, RenderedFlags);
    assert forall f :: f in Recognised <==> f in RenderedFlags;
    var connectors := if Hovered in st then s.connectors else DropHover(s.connectors);
    Shape(s.kind, s.position, st, classes, connectors)
  }

  /** `update(param)`: position, then connectors, then state (with the class sync
      and the hover cascade onto connectors). */
  function Update(s: Shape, p: Patch): (r: Shape)
    requires Applicable(s, p)
    ensures r.kind == s.kind
    ensures p.position.Some? ==> r.position == p.position.value
    ensures p.position.None? ==> r.position == s.position
    ensures p.state.Some? ==> r.state == p.state.value
    ensures p.state.None? ==> r.state == s.state && r.classes == s.classes
    ensures p.state.Some? ==> r.classes * Recognised == p.state.value * Recognised
    ensures r.classes - Recognised == s.classes - Recognised
    ensures p.state.Some? ==> ClassesInSync(r)
    ensures ClassesInSync(s) ==> ClassesInSync(r)
    ensures r.connectors.Keys == s.connectors.Keys
    ensures p.connectors.None? ==> forall k :: k in s.connectors ==>
      r.connectors[k].innerPosition == s.connectors[k].innerPosition && r.connectors[k].dir == s.connectors[k].dir
    ensures p.connectors.Some? ==> forall k :: k in s.connectors ==>
      && r.connectors[k].innerPosition == MergeConnectors(s.connectors, p.connectors.value)[k].innerPosition
      && r.connectors[k].dir == MergeConnectors(s.connectors, p.connectors.value)[k].dir
    ensures p.state.Some? && Hovered !in p.state.value ==>
      forall k :: k in s.connectors ==> r.connectors[k].state == s.connectors[k].state - {Hovered}
    ensures p.state.None? || Hovered in p.state.value ==>
      forall k :: k in s.connectors ==> r.connectors[k].state == s.connectors[k].state
  {
    var s1 := s.(position := p.position.GetOr(s.position));
    var s2 := if p.connectors.Some? then s1.(connectors := MergeConnectors(s.connectors, p.connectors.value)) else s1;
    if p.state.Some? then ApplyState(s2, p.state.value) else s2
  }

  /** `shapeStateSet(shape, f, on)`: an update whose state is the current one with
      `f` added or removed. */
  function StateSet(s: Shape, f: StateFlag, on: bool): (r: Shape)
    ensures StateHas(r, f) == on
    ensures forall g :: g != f ==> (StateHas(r, g) <==> StateHas(s, g))
    ensures r.kind == s.kind && r.position == s.position
    ensures r.connectors.Keys == s.connectors.Keys
    ensures ClassesInSync(r)
    ensures StateHas(r, Hovered) ==> r.connectors == s.connectors
    ensures !StateHas(r, Hovered) ==> forall k :: k in s.connectors ==>
      && r.connectors[k].state == s.connectors[k].state - {Hovered}
      && r.connectors[k].innerPosition == s.connectors[k].innerPosition
      && r.connectors[k].dir == s.connectors[k].dir
  {
    Update(s, Patch(None, None, Some(if on then s.state + {f} else s.state - {f})))
  }

  /** `shapeStateDel(shape, f)`. */
  function StateDel(s: Shape, f: StateFlag): (r: Shape)
    ensures !StateHas(r, f)
    ensures forall g :: g != f ==> (StateHas(r, g) <==> StateHas(s, g))
    ensures r.kind == s.kind && r.position == s.position
  {
    StateSet(s, f, false)
  }

  /** A patch with nothing in it leaves the shape as it was. */
  lemma EmptyPatchIsIdentity(s: Shape)
    ensures Update(s, Patch(None, None, None)) == s
  {
  }

  /** Merging a patch into connectors that already carry every field it
      supplies changes nothing. */
  lemma MergeConnectorsStable(cs: map<string, Connector>, cp: map<string, ConnectorPatch>)
    requires forall k :: k in cs && k in cp ==>
      && (cp[k].innerPosition.Some? ==> cs[k].innerPosition == cp[k].innerPosition.value)
      && (cp[k].dir.Some? ==> cs[k].dir == cp[k].dir.value)
    ensures MergeConnectors(cs, cp) == cs
  {
    var r := MergeConnectors(cs, cp);
    forall k | k in cs ensures r[k] == cs[k] {
      if k in cp {
        assert r[k] == MergeConnector(cs[k], cp[k]);
      }
    }
  }

  /** The state branch applied twice with the same state is the state branch
      applied once. */
  lemma ApplyStateIdempotent(s: Shape, st: set<StateFlag>)
    ensures ApplyState(ApplyState(s, st), st) == ApplyState(s, st)
  {
    var r := ApplyState(s, st);
    var rr := ApplyState(r, st);
    assert rr.classes == r.classes by {
      forall f ensures f in rr.classes <==> f in r.classes {
        if f in Recognised {
          assert f in rr.classes * Recognised <==> f in r.classes * Recognised;
        } else {
          assert f in rr.classes - Recognised <==> f in r.classes - Recognised;
        }
      }
    }
    assert rr.connectors == r.connectors by {
      forall k | k in r.connectors ensures rr.connectors[k] == r.connectors[k] {
        if Hovered !in st {
          assert rr.connectors[k].state == r.connectors[k].state - {Hovered};
        }
      }
    }
  }

  /** Applying the same patch twice is the same as applying it once. */
  lemma {:induction false} UpdateIdempotent(s: Shape, p: Patch)
    requires Applicable(s, p)
    ensures Applicable(Update(s, p), p)
    ensures Update(Update(s, p), p) == Update(s, p)
  {
    var r := Update(s, p);
    var s1 := r.(position := p.position.GetOr(r.position));
    assert s1 == r;
    if p.connectors.Some? {
      MergeConnectorsStable(r.connectors, p.connectors.value);
    }
    var s2 := if p.connectors.Some? then s1.(connectors := MergeConnectors(r.connectors, p.connectors.value)) else s1;
    assert s2 == r;
    if p.state.Some? {
      ApplyStateIdempotent(Update(s, p.(state := None)), p.state.value);
    }
  }

  /** The hover cascade: un-hovering a shape un-hovers all its connectors in the
      same call, and keeps their other flags (selection in particular). */
  lemma HoverCascade(s: Shape, st: set<StateFlag>, k: string)
    requires Hovered !in st
    requires k in s.connectors
    ensures Hovered !in Update(s, Patch(None, None, Some(st))).connectors[k].state
    ensures forall f :: f != Hovered ==>
      (f in Update(s, Patch(None, None, Some(st))).connectors[k].state <==> f in s.connectors[k].state)
  {
  }
}
